=== FILE: README.md ===
# WormBait data layer in Dafny

WormBait annotates the genes of a CuffLinks differential-expression run with
data from the WormBase REST API. This project models the data layer,
`WormCSV.py`, in both the Python 2 and the Python 3 variants of the repository:

- `CuffLinkDatabase` reads the CuffLinks output (header row, then one row per
  id) into a dictionary keyed by the first cell, and answers `get`. A data
  row shorter than the header is truncated by `zip` rather than rejected,
  and a row without a first cell raises IndexError.
- `WormData.populate` builds one gene record. It reads `log2(fold_change)`
  from the CuffLinks table, asks the WormBase gene endpoints for
  `sequence_name`, `concise_description`, `gene_models`, `gene_class` and
  three ortholog lists, and asks the protein endpoint for `best_human_match`.
  In Python 2 it asks once per protein id. Python 3 asks once per character
  of the joined ids, and raises TypeError when there are none; see
  `## Findings`. `joinIfExtant` collapses each list to a
  comma-separated string, or to `None` when the list is empty.
- `WormData.fetch` unwraps a `{field: {data: …}}` response, and
  `WormData.get` reads one field of the record.
- `OutputCSV.write` (Python 2) drops the `db_id` and `up/down` columns when
  no record carries an `XLOC…` `db_id`. It then turns each record into a row
  under the header list, the way `csv.DictWriter` does.

How the model is built:

- **Python values.** Every Python value the code touches is a `PyJson.Json`
  value; `JNull` stands for `None`. Subscripts, `in`, truthiness,
  `startswith` and `', '.join` are modelled together with the exceptions
  Python raises for the wrong shape (`TypeError`, `KeyError`,
  `AttributeError`, …). So nothing has to be assumed about what WormBase
  returns.
- **The API.** WormBase is an oracle, `WormBase.Api`: a function from a
  lookup (endpoint, id, field) to the decoded body, or `None` when the body
  is not JSON. Being a function, it gives the same answer to a repeated
  lookup, as an idempotent GET against unchanging data does. This matters
  for a protein id listed twice in a table, and for the repeated
  one-character lookups of Python 3.
- **State and failures.** A running `populate` carries a `WormBase.State`:
  the record built so far and the list of lookups made so far. An exception
  ends the run as `Halt(error, lookups)`.
- **The record.** The record a successful run builds is described once, by
  `WormBase.Fields` over a `WormBase.Values` holding the eight fields the
  responses decide. Both versions are proved to build exactly that record.

Module layout:

- `wrappers.dfy`: `Option` and `Result`.
- `pyjson.dfy`: Python operations on JSON values.
- `cufflink.dfy`: `CuffLinkDatabase`.
- `wormbase.dfy`: `fetch`, `get` and the steps both versions share.
- `wormdata_py2.dfy` and `wormdata_py3.dfy`: the two `populate`s.
- `output.dfy`: `OutputCSV.write`.

## Model

| member | source | states |
|---|---|---|
| CuffLink.Load | python2/WormCSV.py:34-39 | An input with no header row raises StopIteration. Otherwise loading succeeds exactly when every data row has a first cell. The keys are exactly the first cells of the data rows. |
| CuffLink.AddRows | python3/WormCSV.py:14-15 | Adding the data rows fails with IndexError exactly when some row is empty. |
| CuffLink.AddRowsContents | python2/WormCSV.py:38-39 | Every key of the table is the first cell of some row. For a key that appears more than once, the entry is the zipped header/cells of the last row with that key. |
| CuffLink.Zip | python3/WormCSV.py:15 | A row maps exactly the headers that have a cell; a row shorter than the header leaves the remaining headers out. A header that occurs more than once among the paired ones maps to the cell of its last occurrence. |
| CuffLink.Get | python2/WormCSV.py:41-46 | Gives a row exactly when the id is a key, and then gives that row; otherwise None. |
| CuffLink.GetAfterLoad | python3/WormCSV.py:17-21 | After a load, `get` answers None exactly when no data row starts with the id. Otherwise it answers the zipped header/cells of the last row that does. |
| PyJson.Contains | python2/WormCSV.py:202-204 | Python `in`: key membership on a dict, element membership on a list, substring test on a string, and TypeError (and only TypeError) on None, booleans and numbers. |
| PyJson.Index | python2/WormCSV.py:193 | Subscripting by a key succeeds exactly on a dict holding the key. A dict lacking the key gives KeyError, and any value that is not a dict gives TypeError. |
| PyJson.StartsWith | python2/WormCSV.py:79 | Defined exactly on strings, where it is true exactly when the prefix is a prefix of the string. Any other value raises AttributeError. |
| PyJson.JoinJson | python2/WormCSV.py:286 | `', '.join` succeeds exactly when every item is a string, and gives the joined text. Otherwise it raises TypeError. |
| PyJson.JoinIfExtant | python2/WormCSV.py:283-286 | An empty list becomes None. A non-empty list becomes its joined string, or raises TypeError when some item is not a string. |
| PyJson.SplitJoin | python2/WormCSV.py:272-286 | Splitting a joined value at ", " gives back the list, provided no item itself contains ", ". |
| PyJson.JoinIsLossyOnSeparator | python3/WormCSV.py:69-72 | Two different lists can join to the same text. |
| WormBase.Unwrap | python2/WormCSV.py:316-330 | An undecodable body gives None. A body holding `field.data` gives that value. A dict body gives None when the field is absent, or when the field's value is a string or list that does not contain `data`. A null, boolean or numeric body or field value raises TypeError. So does a body or field value that is a string or list containing the name looked up in it: Python `in` succeeds there, and the subscript then fails. Every failure is a TypeError. |
| WormBase.Fetch | python3/WormCSV.py:141-152 | Makes exactly one lookup (base, id, field). It succeeds exactly when the unwrap does, and records the lookup. |
| WormBase.ProteinIdOf | python2/WormCSV.py:204-205 | Whenever the loop body does not raise, it yields exactly the item's `protein.id` read by plain dict access, or nothing when the item has none. It does not raise on null items, on dicts whose `protein` is a dict, or on strings shorter than "protein". |
| WormBase.CollectIds | python2/WormCSV.py:203-205 | Collecting succeeds exactly when every item is handled without an exception, and then yields the protein ids of the items in table order, skipping items without one. It succeeds whenever every item is well shaped. |
| WormBase.CharsCollectNothing | python3/WormCSV.py:65-67 | Iterating over a string table visits one-letter strings, and none of them yields a protein id. |
| WormBase.KeyNeverContributes | python2/WormCSV.py:203-205 | A dict table iterates over its keys, and no key ever contributes an id. |
| WormBase.TableIds | python2/WormCSV.py:203 | A list table gives the collected ids. String and dict tables give none. A None table raises TypeError. |
| WormBase.OrthologLabel | python2/WormCSV.py:216 | `item['ortholog']['label']` succeeds exactly on items whose `ortholog` is a dict holding `label`, and gives that label. |
| WormBase.LabelsOf | python2/WormCSV.py:215-216 | Succeeds exactly when every item has a label, and gives one label per item, in order. |
| WormBase.OrthologLabels | python2/WormCSV.py:214-216 | A falsy response gives no labels. A list gives its labels. Any other truthy value raises TypeError. |
| WormBase.OrthologField | python3/WormCSV.py:78-87 | One lookup. Success exactly when the response's labels can be read and joined. Then only the ortholog field changes, and it holds the joined labels. |
| WormBase.MatchDescription | python2/WormCSV.py:261-262 | A falsy response contributes nothing. A dict contributes its `description` exactly when it has one. |
| WormBase.ProteinLookups | python2/WormCSV.py:259-260 | Gives one `best_human_match` protein lookup per id, in the order of the ids. |
| WormBase.BestHumanLoop | python2/WormCSV.py:258-262 | The loop makes exactly one protein lookup per id and changes no record field. It succeeds exactly when every description step does, and collects the descriptions found. |
| WormBase.Describe | python2/WormCSV.py:189-193 | Two gene lookups, for the sequence name and the description. Success exactly when both responses can be used; then exactly those two fields are set. |
| WormBase.Orthologs | python2/WormCSV.py:212-236 | Three gene lookups. Success exactly when the three ortholog responses can be used; then exactly the three joined fields are set. |
| WormBase.Get | python2/WormCSV.py:297-300 | A field present in the record is returned; an absent field gives None. |
| WormDataPy2.UpDown | python2/WormCSV.py:183-184 | An empty dbId leaves the record alone. An unknown dbId raises TypeError, because `get` returns None. A row without `log2(fold_change)` raises KeyError. Otherwise `up/down` is the fold change. No lookup is made. |
| WormDataPy2.ProteinIds | python2/WormCSV.py:199-205 | A falsy response or one without `table` gives no ids. Otherwise the ids come from the table. |
| WormDataPy2.GeneClassLabel | python2/WormCSV.py:208-210 | A None response gives no class. A dict response gives `tag.label` when present. Any label it gives is that one. |
| WormDataPy2.Models | python2/WormCSV.py:199-210 | Two gene lookups. Success exactly when both the protein ids and the gene class can be read, which gives them. |
| WormDataPy2.AfterDescribe | python2/WormCSV.py:199-270 | The steps after the description only ever append lookups, whether they finish or raise. |
| WormDataPy2.Proteins | python2/WormCSV.py:238-270 | One protein lookup per id. Success exactly when the ids are strings and the descriptions can be read and joined. `protein_id` and `best_human_ortholog` become the joined lists. |
| WormDataPy2.Populate | python2/WormCSV.py:178-184 | An id without the `WBGene` prefix leaves the record as `{gene_id}` with no lookup. An unknown dbId raises TypeError, and a row lacking the fold change raises KeyError, both before any lookup. |
| WormDataPy2.EnrichSuccess | python2/WormCSV.py:183-270 | A successful enrichment has every step succeed. The record it builds is exactly `Fields` over the responses, and its lookups are the seven gene lookups followed by one per protein id. |
| WormDataPy2.PopulateFirstLookup | python2/WormCSV.py:189 | When the CuffLinks row is usable, the first lookup of a WBGene run is the gene's `sequence_name`. |
| WormDataPy2.PopulateLookups | python2/WormCSV.py:189-262 | A successful run makes exactly the seven gene lookups, then one `best_human_match` lookup per protein id, so 7 + (number of ids) in all. |
| WormDataPy2.PopulateRecord | python2/WormCSV.py:144-270 | The record of a successful run is `gene_id`, then `up/down` when a dbId was given, then the fields the responses decide. |
| WormDataPy2.PopulateKeys | python2/WormCSV.py:184-238 | The record's keys are the eight fixed keys, `gene_id` included. It also holds `up/down` exactly when a dbId was given, and `gene_class` exactly when the response carries a tag label. |
| WormDataPy2.PopulateValues | python2/WormCSV.py:189-300 | What `get` answers for each field after a run. `up/down` is the fold change, or None without a dbId, and `gene_class` is the tag label, or None without one. The other fields are the sequence name, the description text, the joined ortholog labels, the joined protein ids and the joined best-human descriptions. |
| WormBase.RecordGet | python2/WormCSV.py:297-300 | On a record built over `Seed`, `get` returns each written value, and None for an optional field that was not written. |
| WormDataPy2.PopulateSucceedsWhen | python2/WormCSV.py:178-270 | Conversely, a usable CuffLinks row together with usable responses guarantees success. |
| WormDataPy2.NoProteinIds | python2/WormCSV.py:258-270 | With no protein ids, no protein lookup is made, and `protein_id` and `best_human_ortholog` are None. |
| WormDataPy3.UpDown | python3/WormCSV.py:55 | Unguarded: success exactly when the xloc id has a row with the fold change. An unknown id raises TypeError; a missing column raises KeyError. |
| WormDataPy3.ProteinIds | python3/WormCSV.py:63-67 | No guard: a dict with `table` gives the table's ids. A dict without one raises KeyError, and any other response raises TypeError. |
| WormDataPy3.ProteinIdsAgree | python3/WormCSV.py:63-67 | Where the Python 3 reading succeeds it agrees with Python 2. Where Python 2 falls back to no ids, Python 3 raises. |
| WormDataPy3.Models | python3/WormCSV.py:63-76 | Two gene lookups. The protein ids are joined at once, and `gene_class` is stored as the raw response. |
| WormDataPy3.ProteinIdShape | python3/WormCSV.py:69-72 | The joined `protein_id` is None exactly when there are no ids, and a string exactly when there are some. |
| WormDataPy3.BestHuman | python3/WormCSV.py:111-128 | A None `protein_id` raises TypeError. A string `protein_id` is iterated character by character, with one lookup per character. |
| WormDataPy3.Populate | python3/WormCSV.py:54-55 | An unknown xloc id raises TypeError, and a row lacking the fold change raises KeyError, before any lookup. |
| WormDataPy3.WriteOrder | python3/WormCSV.py:55-128 | Writing the fields in the Python 3 order gives the same record as the shared `Fields`. |
| WormDataPy3.PopulateSuccess | python3/WormCSV.py:54-128 | A successful run builds `Fields` over the responses, with `up/down` always present and `gene_class` raw. Its lookups are the seven gene lookups, then one per character of the joined protein ids. |
| WormDataPy3.PopulateNeedsProteinIds | python3/WormCSV.py:113-116 | A successful run had at least one protein id. |
| WormDataPy3.NoProteinIdsRaises | python3/WormCSV.py:69-70 | When every response is usable but there are no protein ids, the run raises TypeError after the seven gene lookups. |
| WormDataPy3.RunToBestHuman | python3/WormCSV.py:55-113 | With a usable row and usable gene responses, the run makes exactly the seven gene lookups. It then enters the best-human step with the joined `protein_id`, which is None or a string. |
| WormDataPy3.PopulateSucceedsWhen | python3/WormCSV.py:54-128 | A usable row together with usable responses guarantees success. |
| WormDataPy3.ModelIdsAgree | python3/WormCSV.py:63-67 | When Python 3 reads the protein ids, Python 2 reads the same ids. |
| WormDataPy3.SingleIdLookups | python3/WormCSV.py:113-121 | For one protein id `s`, Python 2 makes 7 + 1 lookups, while Python 3 makes 7 + one per character of `s`. The two lists differ whenever `s` is not one character long. |
| WormDataPy3.SingleIdCounts | python3/WormCSV.py:113-121 | For one protein id `s`, Python 2 makes 8 lookups, while Python 3 makes 7 + (length of `s`). |
| WormDataPy3.SingleIdExample | python3/WormCSV.py:116-117 | A concrete gene with the single protein id `WP:CE1`: Python 2 makes 8 lookups and Python 3 makes 13. |
| WormDataPy3.NoMatches | python3/WormCSV.py:116-119 | When no protein has a best human match, the loop collects nothing. |
| OutputCsv.Exclusive | python2/WormCSV.py:77-80 | True means no record has an `XLOC` `db_id`, and false means some record has one. The scan raises AttributeError exactly when some `db_id` is not a string and no earlier record has an XLOC id, because the flag stops the inspection of later records. |
| OutputCsv.Remove | python2/WormCSV.py:83 | `list.remove` succeeds exactly when the name is present, else ValueError. It shortens the list by one. |
| OutputCsv.RemoveFirst | python2/WormCSV.py:83-84 | It removes the first occurrence and keeps the order of everything else. |
| OutputCsv.RemoveContents | python2/WormCSV.py:83-84 | The result holds the same names, less one copy of the removed one. |
| OutputCsv.RemoveBoth | python2/WormCSV.py:82-84 | Trimming succeeds exactly when both `db_id` and `up/down` are in the header. |
| OutputCsv.RemoveBothContents | python2/WormCSV.py:82-84 | A trimmed header is two shorter and has lost one `db_id` and one `up/down`. |
| OutputCsv.TrimHeaders | python2/WormCSV.py:77-84 | The header is kept when some record has an XLOC id, and trimmed of both columns when none has. A failing scan raises AttributeError. |
| OutputCsv.Project | python2/WormCSV.py:98-101 | A record becomes a row exactly when all its keys are header names; otherwise ValueError. The row has one cell per header: the record's value, or the empty string for an absent key. |
| OutputCsv.ProjectReadBack | python2/WormCSV.py:98-101 | Reading a written row back under a duplicate-free header gives exactly the header's names. Each field of the record comes back with its value, and each header the record lacks comes back empty. |
| OutputCsv.ProjectAll | python2/WormCSV.py:100-101 | Succeeds exactly when every record can be written, with one row per record. |
| OutputCsv.Write | python2/WormCSV.py:73-101 | Succeeds exactly when the header trimming succeeds and every record fits the trimmed header. The header written is the trimmed one, and row i is record i projected onto it. On an exception, the error is AttributeError or ValueError, and `self.headers` holds what the in-place trimming left. When the exception comes from a record, it is ValueError, and the rows already written are the projections of the records before the first rejected one. |
| OutputCsv.HeaderAfter | python2/WormCSV.py:82-84 | What `self.headers` holds after the trimming step, finished or not. It is the trimmed header on success, and untouched when the scan raises, finds an XLOC id or finds no `db_id`. It has lost only `db_id` when `remove('up/down')` raises. |
| OutputCsv.WriteTwice | python2/WormCSV.py:72-84 | The trimmed header is kept on the object, so when the original header names `db_id` once, a second write of WormBase-only records raises ValueError at once, leaving the header unchanged and no row written. |
| OutputCsv.PopulatedRecordHasNoId | python2/WormCSV.py:144-270 | No record that `populate` builds has a `db_id` field. |
| OutputCsv.PopulatedRecordHasUpDown | python2/WormCSV.py:183-184 | A record built with a non-empty dbId holds `up/down`. |
| OutputCsv.UpDownRowRejected | python2/WormCSV.py:77-101 | Records without `db_id` always count as WormBase-only. If one of them holds `up/down` and the header names `up/down` at most once, the write raises ValueError. |
| OutputCsv.PopulatedRecordRejected | python2/WormCSV.py:77-101 | A record straight from `populate` with a dbId, passed to `write` without a `db_id` added, is rejected with ValueError. |

## Left out

- HTTP transport. Network errors and status codes are left out. The request is one call of the `Api` oracle, and a body that is not JSON is its `None`.
- JSON decoding and CSV parsing. The CuffLinks file is modelled as its rows of cells, with quoting already resolved. The output is the header plus the rows of cells, not file bytes. How a cell value is rendered as text is left out, including `DictWriter` writing `None` as an empty cell. Python 2/3 file modes are left out too.
- JSON numbers are kept abstract as `JNum(int)`: floating point is not modelled.
- `CuffLinkDatabase.getAll` and `WormData.describe` return the stored dictionary unchanged. They are the `Database` value and `State.data` themselves.
- Under Python 3, `OutputCSV.write` opens the file in binary mode, so `writeheader` raises TypeError (a `str` written to a binary file) before any row is written, on every call. That write is not modelled; without the file mode it would be `OutputCsv.ProjectAll`, which hands every record to `DictWriter` without trimming.
- The caller that builds the `write` header and decides whether records carry `db_id` is not part of this model. `db_id` is treated as an arbitrary field of a record.
- WormDataPy2.Populate: `dbId` and `geneID` are strings, with the empty string as the falsy value. A `None` dbId or gene id is not modelled.
- OutputCsv.Write: under Python 2 the csv writer can also raise UnicodeEncodeError on a non-ASCII unicode cell. That error is not modelled, because how a cell is rendered as text is left out.
- The order of dictionary iteration (a `gene_models` table that is a dict) is not modelled. `WormBase.KeyNeverContributes` shows that no key can contribute an id, so the order does not matter.

## Findings

| source | as written | input that shows it | evidently intended | confidence | as-written member | corrected member |
|---|---|---|---|---|---|---|
| python3/WormCSV.py:113-121 | `isSingular` is false for a string, so the loop runs over the characters of the joined `protein_id` string. It asks for `best_human_match` once per character, and never for the whole id. | `gene_models` with the single protein id `WP:CE1`: 6 characters, so 6 protein lookups for one-letter ids. | One `best_human_match` lookup per protein id, as in the Python 2 version. | not executed; high | WormDataPy3.SingleIdLookups | WormDataPy2.PopulateLookups |
| python3/WormCSV.py:113-116 | With no protein ids, `protein_id` is set to None before the loop. `isSingular` is then false, and `for proteinID in None` raises TypeError. | A gene whose `gene_models` table lists no protein ids, with every other response usable. | No protein lookup, and `best_human_ortholog` None, as in the Python 2 version. | not executed; high | WormDataPy3.NoProteinIdsRaises | WormDataPy2.NoProteinIds |

=== FILE: cufflink.dfy ===
/** CuffLinkDatabase: the rows of a CuffLinks output file, parsed by the csv
    reader into lists of cells, keyed by their first cell. The class is the
    same in the Python 2 and the Python 3 script. */
module CuffLink {
  import opened Wrappers
  import opened PyJson

  /** One row of the file as a header-to-cell dict. */
  type Row = map<string, string>

  /** First cell of a row to that row's dict. */
  type Database = map<string, Row>

  /** `i` is the last of the first `n` positions holding the header `headers[i]`. */
  predicate LastHeader(headers: seq<string>, n: nat, i: nat)
    requires n <= |headers|
  {
    i < n && forall j :: i < j < n ==> headers[j] != headers[i]
  }

  /** `dict(zip(headers[..n], cells[..n]))`: pairs are inserted in order, so
      a repeated header keeps the cell of its last occurrence. */
  function ZipPrefix(headers: seq<string>, cells: seq<string>, n: nat): (r: Row)
    requires n <= |headers| && n <= |cells|
    ensures forall k :: k in r <==> exists i :: 0 <= i < n && headers[i] == k
    ensures forall i {:trigger LastHeader(headers, n, i)} :: 0 <= i < n && LastHeader(headers, n, i) ==> headers[i] in r && r[headers[i]] == cells[i]
    decreases n
  {
    if n == 0 then map[]
    else
      var prev := ZipPrefix(headers, cells, n - 1);
      var r := prev[headers[n - 1] := cells[n - 1]];
      assert forall i :: 0 <= i < n && LastHeader(headers, n, i) ==> r[headers[i]] == cells[i] by {
        forall i | 0 <= i < n && LastHeader(headers, n, i)
          ensures r[headers[i]] == cells[i]
        {
          if i < n - 1 {
            assert headers[n - 1] != headers[i];
            assert LastHeader(headers, n - 1, i);
          }
        }
      }
      r
  }

  /** How many header/cell pairs `zip` makes: the length of the shorter list. */
  function Width(headers: seq<string>, cells: seq<string>): (n: nat)
    ensures n <= |headers| && n <= |cells|
    ensures n == |headers| || n == |cells|
  {
    if |headers| <= |cells| then |headers| else |cells|
  }

  /** `dict(zip(headers, cells))`: `zip` stops at the shorter list, and a
      repeated header keeps the cell of its last paired occurrence. */
  function Zip(headers: seq<string>, cells: seq<string>): (r: Row)
    ensures forall k :: k in r <==> exists i :: 0 <= i < |headers| && i < |cells| && headers[i] == k
    ensures forall i {:trigger LastHeader(headers, Width(headers, cells), i)} ::
              0 <= i < Width(headers, cells) && LastHeader(headers, Width(headers, cells), i) ==>
                headers[i] in r && r[headers[i]] == cells[i]
  {
    ZipPrefix(headers, cells, Width(headers, cells))
  }

  /** Data row `i` is non-empty and no later one of the first `n` rows shares its key. */
  predicate LastRow(rows: seq<seq<string>>, n: nat, i: nat)
    requires n <= |rows|
  {
    i < n && |rows[i]| > 0 && forall j :: i < j < n && |rows[j]| > 0 ==> rows[j][0] != rows[i][0]
  }

  /** The loop over the first `n` data rows, storing each row's zipped dict
      under its first cell.
      An empty row (a blank line) raises IndexError on `row[0]`. */
  function AddRows(headers: seq<string>, rows: seq<seq<string>>, n: nat): (r: Result<Database, PyError>)
    requires n <= |rows|
    ensures r.Success? <==> forall i :: 0 <= i < n ==> |rows[i]| > 0
    ensures r.Failure? ==> r.error == IndexError
    decreases n
  {
    if n == 0 then Success(map[])
    else
      var db :- AddRows(headers, rows, n - 1);
      var row := rows[n - 1];
      if |row| == 0 then Failure(IndexError)
      else Success(db[row[0] := Zip(headers, row)])
  }

  /** The table built from the first `n` data rows holds one entry per
      distinct first cell, and that entry comes from the last such row. */
  lemma {:induction false} AddRowsContents(headers: seq<string>, rows: seq<seq<string>>, n: nat)
    requires n <= |rows|
    requires AddRows(headers, rows, n).Success?
    ensures forall k :: k in AddRows(headers, rows, n).value <==> exists i :: 0 <= i < n && rows[i][0] == k
    ensures forall i {:trigger LastRow(rows, n, i)} :: 0 <= i < n && LastRow(rows, n, i) ==>
              rows[i][0] in AddRows(headers, rows, n).value && AddRows(headers, rows, n).value[rows[i][0]] == Zip(headers, rows[i])
    decreases n
  {
    if n > 0 {
      AddRowsContents(headers, rows, n - 1);
      var db := AddRows(headers, rows, n - 1).value;
      var row := rows[n - 1];
      var db' := AddRows(headers, rows, n).value;
      assert db' == db[row[0] := Zip(headers, row)];
      forall k
        ensures k in db' <==> exists i :: 0 <= i < n && rows[i][0] == k
      {
        if k == row[0] {
          assert rows[n - 1][0] == k;
        } else if exists i :: 0 <= i < n && rows[i][0] == k {
          var i :| 0 <= i < n && rows[i][0] == k;
          assert i < n - 1;
        }
      }
      forall i | 0 <= i < n && LastRow(rows, n, i)
        ensures rows[i][0] in db' && db'[rows[i][0]] == Zip(headers, rows[i])
      {
        if i < n - 1 {
          assert rows[n - 1][0] != rows[i][0];
          assert LastRow(rows, n - 1, i);
        }
      }
    }
  }

  /** CuffLinkDatabase.__init__ on the parsed rows of the file: the first row
      is the header (StopIteration when the file has no row at all), every
      later row is a data row. */
  function Load(rows: seq<seq<string>>): (r: Result<Database, PyError>)
    ensures |rows| == 0 ==> r == Failure(StopIteration)
    ensures |rows| > 0 ==> (r.Success? <==> forall i :: 1 <= i < |rows| ==> |rows[i]| > 0)
    ensures r.Success? ==> forall k :: k in r.value <==> exists i :: 1 <= i < |rows| && rows[i][0] == k
  {
    if |rows| == 0 then Failure(StopIteration)
    else
      var r := AddRows(rows[0], rows[1..], |rows| - 1);
      assert r.Success? ==> forall k :: k in r.value <==> exists i :: 1 <= i < |rows| && rows[i][0] == k by {
        if r.Success? {
          AddRowsContents(rows[0], rows[1..], |rows| - 1);
          forall k ensures k in r.value <==> exists i :: 1 <= i < |rows| && rows[i][0] == k {
            if k in r.value {
              var i :| 0 <= i < |rows| - 1 && rows[1..][i][0] == k;
              assert rows[i + 1][0] == k;
            }
            if exists i :: 1 <= i < |rows| && rows[i][0] == k {
              var i :| 1 <= i < |rows| && rows[i][0] == k;
              assert rows[1..][i - 1][0] == k;
            }
          }
        }
      }
      r
  }

  /** CuffLinkDatabase.get: the row dict for `id`, or None for an unknown id. */
  function Get(db: Database, id: string): (r: Option<Row>)
    ensures r.Some? <==> id in db
    ensures r.Some? ==> r.value == db[id]
  {
    if id in db then Some(db[id]) else None
  }

  /** After a successful load, `get` finds exactly the keys of the data rows,
      and the row it returns is the LAST data row with that key, zipped with
      the header row. */
  lemma {:induction false} GetAfterLoad(rows: seq<seq<string>>, id: string)
    requires Load(rows).Success?
    ensures Get(Load(rows).value, id).None? <==> forall i :: 1 <= i < |rows| ==> rows[i][0] != id
    ensures forall i :: 1 <= i < |rows| && rows[i][0] == id && LastRow(rows[1..], |rows| - 1, i - 1) ==>
              Get(Load(rows).value, id) == Some(Zip(rows[0], rows[i]))
  {
    var data := rows[1..];
    var db := Load(rows).value;
    assert db == AddRows(rows[0], data, |data|).value;
    AddRowsContents(rows[0], data, |data|);
    forall i | 1 <= i < |rows| && rows[i][0] == id && LastRow(data, |data|, i - 1)
      ensures Get(db, id) == Some(Zip(rows[0], rows[i]))
    {
      assert data[i - 1] == rows[i];
    }
  }
}

=== FILE: output.dfy ===
/** OutputCSV.write from python2/WormCSV.py without the file: the
    header-trimming heuristic, the header list it leaves behind in
    `self.headers`, and the projection of each record onto the header order
    that csv.DictWriter performs (restval "", extrasaction "raise"). */
module OutputCsv {
  import opened Wrappers
  import opened PyJson
  import opened CuffLink
  import opened WormBase
  import WormDataPy2

  /** A WormData record, as `describe()` returns it. */
  type Record = map<string, Json>

  const IdColumn: string := "db_id"
  const UpDownColumn: string := "up/down"

  /** The prefix of CuffLinks (expression-only) ids. */
  const XlocPrefix: string := "XLOC"

  /** The record carries a `db_id` string starting with "XLOC". */
  predicate HasXlocId(rec: Record) {
    IdColumn in rec && rec[IdColumn].JStr? && XlocPrefix <= rec[IdColumn].s
  }

  /** `db_id`, when present, is a string. */
  predicate IdIsString(rec: Record) {
    IdColumn in rec ==> rec[IdColumn].JStr?
  }

  /** The scan reaches record `i` and raises on it: its `db_id` is not a
      string, and no earlier record has an XLOC id to stop the scan. */
  predicate RaisesAt(records: seq<Record>, i: int) {
    0 <= i < |records| && !IdIsString(records[i]) && forall j :: 0 <= j < i ==> !HasXlocId(records[j])
  }

  /** The scan that computes `exclusivelyWBIds`. The flag is checked first, so
      once an XLOC id is seen no later record is inspected; before that, a
      `db_id` that is not a string has no `startswith` and raises. */
  function Exclusive(records: seq<Record>): (r: Result<bool, PyError>)
    ensures r == Success(true) ==> forall i :: 0 <= i < |records| ==> !HasXlocId(records[i])
    ensures r == Success(false) ==> exists i :: 0 <= i < |records| && HasXlocId(records[i])
    ensures (forall i :: 0 <= i < |records| ==> IdIsString(records[i])) ==> r.Success?
    ensures r.Failure? ==> r.error == AttributeError && exists i :: 0 <= i < |records| && !IdIsString(records[i])
    ensures r.Failure? <==> exists i :: RaisesAt(records, i)
    decreases |records|
  {
    if |records| == 0 then Success(true)
    else
      var rec := records[0];
      var rest := Exclusive(records[1..]);
      assert rest == Success(false) ==> exists i :: 0 <= i < |records| && HasXlocId(records[i]) by {
        if rest == Success(false) {
          var j :| 0 <= j < |records[1..]| && HasXlocId(records[1..][j]);
          assert records[j + 1] == records[1..][j];
        }
      }
      assert (exists i :: RaisesAt(records, i)) <==> RaisesAt(records, 0) || (!HasXlocId(rec) && exists i :: RaisesAt(records[1..], i)) by {
        if i :| RaisesAt(records, i) && i > 0 {
          assert RaisesAt(records[1..], i - 1);
        }
        if i :| RaisesAt(records[1..], i) {
          if !HasXlocId(rec) {
            assert RaisesAt(records, i + 1);
          }
        }
      }
      if |rec| > 0 && IdColumn in rec then
        var xloc :- StartsWith(rec[IdColumn], XlocPrefix);
        if xloc then Success(false) else rest
      else rest
  }

  /** `list.remove(name)`: drops the first occurrence, ValueError if there is none. */
  function Remove(xs: seq<string>, name: string): (r: Result<seq<string>, PyError>)
    ensures r.Success? <==> name in xs
    ensures r.Failure? ==> r.error == ValueError
    ensures r.Success? ==> |r.value| == |xs| - 1
    decreases |xs|
  {
    if |xs| == 0 then Failure(ValueError)
    else if xs[0] == name then Success(xs[1..])
    else
      var rest :- Remove(xs[1..], name);
      Success([xs[0]] + rest)
  }

  /** What is removed is the first occurrence, and everything else stays in
      order around it. */
  lemma {:induction false} RemoveFirst(xs: seq<string>, name: string) returns (i: nat)
    requires name in xs
    ensures i < |xs| && xs[i] == name && name !in xs[..i]
    ensures Remove(xs, name) == Success(xs[..i] + xs[i + 1..])
    decreases |xs|
  {
    if xs[0] == name {
      i := 0;
      assert xs[..0] + xs[1..] == xs[1..];
    } else {
      var tail := xs[1..];
      var j := RemoveFirst(tail, name);
      i := j + 1;
      assert Remove(xs, name) == Success([xs[0]] + (tail[..j] + tail[j + 1..]));
      DropAfterHead(xs, j);
    }
  }

  /** Dropping index `j + 1` of `xs` is dropping index `j` of its tail and
      putting the head back. */
  lemma DropAfterHead(xs: seq<string>, j: nat)
    requires j + 1 < |xs|
    ensures [xs[0]] + (xs[1..][..j] + xs[1..][j + 1..]) == xs[..j + 1] + xs[j + 2..]
    ensures xs[..j + 1] == [xs[0]] + xs[1..][..j]
  {
    assert xs[..j + 1] == [xs[0]] + xs[1..][..j];
    assert xs[j + 2..] == xs[1..][j + 1..];
  }

  /** Removing one occurrence takes exactly one `name` out of the multiset. */
  lemma RemoveContents(xs: seq<string>, name: string)
    requires Remove(xs, name).Success?
    ensures multiset(Remove(xs, name).value) == multiset(xs) - multiset{name}
  {
    var i := RemoveFirst(xs, name);
    var before, after := xs[..i], xs[i + 1..];
    assert xs == before + [name] + after;
    assert multiset(xs) == multiset(before) + multiset{name} + multiset(after);
    assert multiset(before + after) == multiset(before) + multiset(after);
  }

  /** `self.headers.remove('db_id')` then `self.headers.remove('up/down')`. */
  function RemoveBoth(headers: seq<string>): (r: Result<seq<string>, PyError>)
    ensures r.Success? <==> IdColumn in headers && UpDownColumn in headers
    ensures r.Failure? ==> r.error == ValueError
  {
    var h :- Remove(headers, IdColumn);
    assert UpDownColumn in h <==> UpDownColumn in headers by {
      RemoveContents(headers, IdColumn);
      assert UpDownColumn in multiset(h) <==> UpDownColumn in multiset(headers);
    }
    Remove(h, UpDownColumn)
  }

  /** The trimmed list lost exactly one `db_id` and one `up/down`. */
  lemma RemoveBothContents(headers: seq<string>)
    requires RemoveBoth(headers).Success?
    ensures |RemoveBoth(headers).value| == |headers| - 2
    ensures multiset(RemoveBoth(headers).value) == multiset(headers) - multiset{IdColumn} - multiset{UpDownColumn}
  {
    var h := Remove(headers, IdColumn).value;
    RemoveContents(headers, IdColumn);
    RemoveContents(h, UpDownColumn);
  }

  /** The header list after the trimming step, which is also what
      `self.headers` holds afterwards: `db_id` and `up/down` removed when no
      record carries an XLOC id, untouched otherwise. */
  function TrimHeaders(headers: seq<string>, records: seq<Record>): (r: Result<seq<string>, PyError>)
    ensures Exclusive(records).Failure? ==> r == Failure(AttributeError)
    ensures Exclusive(records) == Success(false) ==> r == Success(headers)
    ensures Exclusive(records) == Success(true) ==> r == RemoveBoth(headers)
  {
    var exclusive :- Exclusive(records);
    if exclusive then RemoveBoth(headers) else Success(headers)
  }

  /** The cell DictWriter writes under header `h`: the record's value, or the
      empty string. */
  function Cell(rec: Record, h: string): Json {
    if h in rec then rec[h] else JStr("")
  }

  /** `writer.writerow(rec)`: ValueError when the record has a field the
      header lacks, otherwise one cell per header. */
  function Project(headers: seq<string>, rec: Record): (r: Result<seq<Json>, PyError>)
    ensures r.Success? <==> forall k :: k in rec ==> k in headers
    ensures r.Failure? ==> r.error == ValueError
    ensures r.Success? ==> |r.value| == |headers|
    ensures r.Success? ==> forall i :: 0 <= i < |headers| ==> r.value[i] == Cell(rec, headers[i])
  {
    if forall k :: k in rec ==> k in headers
    then Success(seq(|headers|, i requires 0 <= i < |headers| => Cell(rec, headers[i])))
    else Failure(ValueError)
  }

  /** A written row read back column by column, as csv.DictReader would. */
  function ReadBack(headers: seq<string>, row: seq<Json>): map<string, Json>
    requires Distinct(headers) && |row| == |headers|
  {
    map i | 0 <= i < |headers| :: headers[i] := row[i]
  }

  /** No header is repeated. */
  predicate Distinct(headers: seq<string>) {
    forall i, j :: 0 <= i < j < |headers| ==> headers[i] != headers[j]
  }

  /** Reading a projected row back under distinct headers recovers the record,
      with the empty string in every column the record lacks. */
  lemma ProjectReadBack(headers: seq<string>, rec: Record)
    requires Distinct(headers)
    requires Project(headers, rec).Success?
    ensures var back := ReadBack(headers, Project(headers, rec).value);
            && back.Keys == set h | h in headers
            && (forall k :: k in rec ==> back[k] == rec[k])
            && (forall h :: h in headers && h !in rec ==> back[h] == JStr(""))
  {
    var row := Project(headers, rec).value;
    var back := ReadBack(headers, row);
    forall k | k in back
      ensures back[k] == Cell(rec, k)
    {
      var i :| 0 <= i < |headers| && headers[i] == k;
      assert back[k] == row[i];
    }
  }

  /** The number of leading records `writerow` accepts under `headers`: the
      index of the first record it rejects, or all of them. */
  function Accepted(headers: seq<string>, records: seq<Record>): (n: nat)
    ensures n <= |records|
    ensures forall i :: 0 <= i < n ==> Project(headers, records[i]).Success?
    ensures n < |records| ==> Project(headers, records[n]).Failure?
    decreases |records|
  {
    if |records| == 0 || Project(headers, records[0]).Failure? then 0
    else
      var n := Accepted(headers, records[1..]);
      assert forall i :: 1 <= i < |records| ==> records[i] == records[1..][i - 1];
      n + 1
  }

  /** Every record written in turn, stopping at the first that raises. */
  function ProjectAll(headers: seq<string>, records: seq<Record>): (r: Result<seq<seq<Json>>, PyError>)
    ensures r.Success? <==> forall i :: 0 <= i < |records| ==> Project(headers, records[i]).Success?
    ensures r.Failure? ==> r.error == ValueError
    ensures r.Success? ==> |r.value| == |records|
    ensures r.Success? ==> forall i :: 0 <= i < |records| ==> Project(headers, records[i]) == Success(r.value[i])
    decreases |records|
  {
    if |records| == 0 then Success([])
    else
      var first :- Project(headers, records[0]);
      var rest :- ProjectAll(headers, records[1..]);
      assert forall i :: 1 <= i < |records| ==> records[i] == records[1..][i - 1];
      Success([first] + rest)
  }

  /** What `self.headers` holds once the trimming step is over, whether it
      finished or raised. The list is trimmed in place, so when
      `remove('up/down')` raises, `db_id` is already gone. */
  function HeaderAfter(headers: seq<string>, records: seq<Record>): (h: seq<string>)
    ensures TrimHeaders(headers, records).Success? ==> h == TrimHeaders(headers, records).value
    ensures Exclusive(records) != Success(true) ==> h == headers
    ensures IdColumn !in headers ==> h == headers
    ensures Exclusive(records) == Success(true) && IdColumn in headers && UpDownColumn !in headers
            ==> h == Remove(headers, IdColumn).value
  {
    if Exclusive(records) != Success(true) then headers
    else
      match Remove(headers, IdColumn)
      case Failure(_) => headers
      case Success(h1) =>
        assert UpDownColumn in h1 <==> UpDownColumn in headers by {
          RemoveContents(headers, IdColumn);
          assert UpDownColumn in multiset(h1) <==> UpDownColumn in multiset(headers);
        }
        match Remove(h1, UpDownColumn)
        case Failure(_) => h1
        case Success(h2) => h2
  }

  /** What a write leaves behind: the header list `self.headers` holds
      afterwards (written as the header row when the file is reached), and
      the data rows written to the file. When the trimming step raises,
      the file is never opened and nothing is written. */
  datatype Written = Written(headers: seq<string>, rows: seq<seq<Json>>)

  /** An exception escaping `write`, with what was left behind when it was raised. */
  datatype Aborted = Aborted(error: PyError, written: Written)

  /** OutputCSV.write(listOfWormDatas). The header row is written by
      `writeheader` after the trimming step; each record is then written in
      turn until one raises. */
  function Write(headers: seq<string>, records: seq<Record>): (r: Result<Written, Aborted>)
    ensures r.Success? <==> TrimHeaders(headers, records).Success?
                            && forall i :: 0 <= i < |records| ==> Project(TrimHeaders(headers, records).value, records[i]).Success?
    ensures r.Success? ==> r.value.headers == TrimHeaders(headers, records).value
    ensures r.Success? ==> |r.value.rows| == |records|
    ensures r.Success? ==> forall i :: 0 <= i < |records| ==> Project(r.value.headers, records[i]) == Success(r.value.rows[i])
    ensures Exclusive(records) == Success(false) && (forall i :: 0 <= i < |records| ==> Project(headers, records[i]).Success?)
            ==> r.Success? && r.value.headers == headers
    ensures r.Failure? ==> r.error.error == AttributeError || r.error.error == ValueError
    ensures r.Failure? ==> r.error.written.headers == HeaderAfter(headers, records)
    ensures r.Failure? && TrimHeaders(headers, records).Failure? ==> r.error.written.rows == []
    ensures r.Failure? && TrimHeaders(headers, records).Success? ==>
              var rows := r.error.written.rows;
              && r.error.error == ValueError
              && |rows| < |records|
              && (forall i :: 0 <= i < |rows| ==> Project(r.error.written.headers, records[i]) == Success(rows[i]))
              && Project(r.error.written.headers, records[|rows|]).Failure?
  {
    match TrimHeaders(headers, records)
    case Failure(e) => Failure(Aborted(e, Written(HeaderAfter(headers, records), [])))
    case Success(h) =>
      var n := Accepted(h, records);
      var done := ProjectAll(h, records[..n]);
      assert forall i :: 0 <= i < n ==> records[..n][i] == records[i];
      if n == |records| then
        assert records[..n] == records;
        Success(Written(h, done.value))
      else Failure(Aborted(ValueError, Written(h, done.value)))
  }

  /** `self.headers` keeps the trimmed list, so writing the same WormBase-only
      records again asks for `db_id` a second time and raises ValueError. */
  lemma WriteTwice(headers: seq<string>, records: seq<Record>)
    requires Exclusive(records) == Success(true)
    requires Write(headers, records).Success?
    requires multiset(headers)[IdColumn] == 1
    ensures var h := Write(headers, records).value.headers;
            Write(h, records) == Failure(Aborted(ValueError, Written(h, [])))
  {
    var h := TrimHeaders(headers, records).value;
    RemoveBothContents(headers);
    assert multiset(h)[IdColumn] == 0;
    assert IdColumn !in h;
  }

  /** No record `populate` builds has a `db_id` field. */
  lemma PopulatedRecordHasNoId(api: Api, db: Database, dbId: string, geneId: string)
    requires WormDataPy2.Populate(api, db, dbId, geneId).Success?
    ensures IdColumn !in WormDataPy2.Populate(api, db, dbId, geneId).value.data
  {
    var data := WormDataPy2.Populate(api, db, dbId, geneId).value.data;
    if WormDataPy2.IsWormBaseGene(geneId) {
      WormDataPy2.PopulateKeys(api, db, dbId, geneId);
      IdNotAField();
      assert data.Keys <= EnrichedKeys + {UpDownColumn, "gene_class"};
    } else {
      assert data == map["gene_id" := JStr(geneId)];
    }
  }

  /** `db_id` is none of the fields `populate` writes. */
  lemma IdNotAField()
    ensures IdColumn !in EnrichedKeys + {UpDownColumn, "gene_class"}
  {
    assert |IdColumn| == 5;
  }

  /** Records without `db_id` always count as WormBase-only, so `up/down` is
      dropped from a header that names it once; any record holding `up/down`
      then has a field the header lacks, and the write raises ValueError. */
  lemma UpDownRowRejected(headers: seq<string>, records: seq<Record>)
    requires forall i :: 0 <= i < |records| ==> IdColumn !in records[i]
    requires exists i :: 0 <= i < |records| && UpDownColumn in records[i]
    requires multiset(headers)[UpDownColumn] <= 1
    ensures Exclusive(records) == Success(true)
    ensures Write(headers, records).Failure? && Write(headers, records).error.error == ValueError
  {
    var r := Exclusive(records);
    assert forall i :: 0 <= i < |records| ==> IdIsString(records[i]) && !HasXlocId(records[i]);
    assert r.Success? && r.value;
    if RemoveBoth(headers).Success? {
      var h := RemoveBoth(headers).value;
      RemoveBothContents(headers);
      assert UpDownColumn !in multiset(h);
      var i :| 0 <= i < |records| && UpDownColumn in records[i];
      assert !Project(h, records[i]).Success?;
    }
  }

  /** A record straight from `populate` for a gene looked up with a dbId,
      written without a `db_id` added by the caller, raises ValueError
      whenever the header names `up/down` at most once. */
  lemma PopulatedRecordRejected(api: Api, db: Database, dbId: string, geneId: string, headers: seq<string>)
    requires WormDataPy2.IsWormBaseGene(geneId) && dbId != ""
    requires WormDataPy2.Populate(api, db, dbId, geneId).Success?
    requires multiset(headers)[UpDownColumn] <= 1
    ensures var w := Write(headers, [WormDataPy2.Populate(api, db, dbId, geneId).value.data]);
            w.Failure? && w.error.error == ValueError
  {
    var rec := WormDataPy2.Populate(api, db, dbId, geneId).value.data;
    PopulatedRecordHasNoId(api, db, dbId, geneId);
    PopulatedRecordHasUpDown(api, db, dbId, geneId);
    SingleRecordRejected(headers, rec);
  }

  /** A record looked up with a non-empty dbId holds `up/down`. */
  lemma PopulatedRecordHasUpDown(api: Api, db: Database, dbId: string, geneId: string)
    requires WormDataPy2.IsWormBaseGene(geneId) && dbId != ""
    requires WormDataPy2.Populate(api, db, dbId, geneId).Success?
    ensures UpDownColumn in WormDataPy2.Populate(api, db, dbId, geneId).value.data
  {
    WormDataPy2.PopulateKeys(api, db, dbId, geneId);
  }

  lemma SingleRecordRejected(headers: seq<string>, rec: Record)
    requires IdColumn !in rec && UpDownColumn in rec
    requires multiset(headers)[UpDownColumn] <= 1
    ensures Write(headers, [rec]).Failure? && Write(headers, [rec]).error.error == ValueError
  {
    assert [rec][0] == rec;
    UpDownRowRejected(headers, [rec]);
  }
}

=== FILE: pyjson.dfy ===
/** Decoded JSON values together with the few Python operations the WormBait
    data layer applies to them: truthiness, `key in value`, `value[key]`,
    `s.startswith(p)` and `', '.join(list)`. Python's `None` is `JNull`.
    Each operation raises exactly where CPython raises. */
module PyJson {
  import opened Wrappers

  /** The exceptions the modelled code can raise. */
  datatype PyError = TypeError | KeyError | IndexError | ValueError | AttributeError | StopIteration

  /** A decoded JSON value. Numbers are integers only. */
  datatype Json =
    | JNull
    | JBool(b: bool)
    | JNum(n: int)
    | JStr(s: string)
    | JArr(items: seq<Json>)
    | JObj(fields: map<string, Json>)

  /** Python truthiness: `None`, `False`, `0` and empty containers are false. */
  predicate Truthy(j: Json) {
    match j
    case JNull => false
    case JBool(b) => b
    case JNum(n) => n != 0
    case JStr(s) => |s| > 0
    case JArr(items) => |items| > 0
    case JObj(fields) => |fields| > 0
  }

  /** `needle` occurs as a contiguous piece of `hay`. */
  predicate IsSubstring(needle: string, hay: string)
    decreases |hay|
  {
    needle <= hay || (|hay| > 0 && IsSubstring(needle, hay[1..]))
  }

  /** A string never occurs inside a shorter one. */
  lemma {:induction false} SubstringNotLonger(needle: string, hay: string)
    requires |hay| < |needle|
    ensures !IsSubstring(needle, hay)
  {
    if |hay| > 0 {
      SubstringNotLonger(needle, hay[1..]);
    }
  }

  /** Python `key in j` for a string `key`: substring test on a string,
      element test on a list, key test on a dict, TypeError otherwise. */
  function Contains(key: string, j: Json): (r: Result<bool, PyError>)
    ensures j.JObj? ==> r == Success(key in j.fields)
    ensures j.JArr? ==> r == Success(JStr(key) in j.items)
    ensures j.JStr? ==> r == Success(IsSubstring(key, j.s))
    ensures r.Failure? <==> (j.JNull? || j.JBool? || j.JNum?)
    ensures r.Failure? ==> r.error == TypeError
  {
    match j
    case JStr(s) => Success(IsSubstring(key, s))
    case JArr(items) => Success(JStr(key) in items)
    case JObj(fields) => Success(key in fields)
    case _ => Failure(TypeError)
  }

  /** Python `j[key]` for a string `key`: only a dict holding the key yields a value. */
  function Index(j: Json, key: string): (r: Result<Json, PyError>)
    ensures r.Success? <==> j.JObj? && key in j.fields
    ensures r.Success? ==> r.value == j.fields[key]
    ensures r == Failure(KeyError) <==> j.JObj? && key !in j.fields
    ensures !j.JObj? ==> r == Failure(TypeError)
  {
    match j
    case JObj(fields) => if key in fields then Success(fields[key]) else Failure(KeyError)
    case _ => Failure(TypeError)
  }

  /** Python `j.startswith(prefix)`: only strings have the method. */
  function StartsWith(j: Json, prefix: string): (r: Result<bool, PyError>)
    ensures r.Success? <==> j.JStr?
    ensures r.Success? ==> (r.value <==> |prefix| <= |j.s| && j.s[..|prefix|] == prefix)
    ensures !j.JStr? ==> r == Failure(AttributeError)
  {
    match j
    case JStr(s) => Success(prefix <= s)
    case _ => Failure(AttributeError)
  }

  /** The separator `', '.join` puts between items. */
  const Sep: string := ", "

  /** The string items of a list, all of which must be strings. */
  predicate AllStrings(items: seq<Json>) {
    forall i :: 0 <= i < |items| ==> items[i].JStr?
  }

  /** The items of `xs` with `Sep` between consecutive ones. */
  function Join(xs: seq<string>): string {
    if |xs| == 0 then ""
    else if |xs| == 1 then xs[0]
    else xs[0] + Sep + Join(xs[1..])
  }

  /** Python `', '.join(items)`: TypeError unless every item is a string. */
  function JoinJson(items: seq<Json>): (r: Result<string, PyError>)
    ensures r.Success? <==> AllStrings(items)
    ensures r.Success? ==> r.value == Join(Strings(items))
    ensures r.Failure? ==> r.error == TypeError
  {
    if AllStrings(items) then Success(Join(Strings(items))) else Failure(TypeError)
  }

  /** The payloads of a list of string values. */
  function Strings(items: seq<Json>): (r: seq<string>)
    requires AllStrings(items)
    ensures |r| == |items|
    ensures forall i :: 0 <= i < |items| ==> items[i] == JStr(r[i])
  {
    seq(|items|, i requires 0 <= i < |items| => items[i].s)
  }

  /** WormData.joinIfExtant: an empty list becomes `None`, any other list
      its items joined by `", "`. */
  function JoinIfExtant(items: seq<Json>): (r: Result<Json, PyError>)
    ensures |items| == 0 ==> r == Success(JNull)
    ensures |items| > 0 ==> (r.Success? <==> AllStrings(items))
    ensures r.Success? && |items| > 0 ==> r.value.JStr? && r.value.s == Join(Strings(items))
    ensures r.Failure? ==> r.error == TypeError
  {
    if |items| == 0 then Success(JNull)
    else
      var joined :- JoinJson(items);
      Success(JStr(joined))
  }

  /** `s` does not contain the separator `", "`. */
  predicate NoSep(s: string) {
    forall i :: 0 <= i < |s| - 1 ==> !(s[i] == ',' && s[i + 1] == ' ')
  }

  /** Splits a string at every occurrence of `", "`, scanning left to right:
      the inverse of `Join` on separator-free items. */
  function Split(s: string): (parts: seq<string>)
    ensures |parts| >= 1
    decreases |s|
  {
    if |s| < 2 then [s]
    else if s[0] == ',' && s[1] == ' ' then [""] + Split(s[2..])
    else
      var rest := Split(s[1..]);
      [[s[0]] + rest[0]] + rest[1..]
  }

  lemma {:induction false} SplitNoSep(x: string)
    requires NoSep(x)
    ensures Split(x) == [x]
    decreases |x|
  {
    if |x| >= 2 {
      assert !(x[0] == ',' && x[1] == ' ');
      assert NoSep(x[1..]) by {
        forall i | 0 <= i < |x[1..]| - 1
          ensures !(x[1..][i] == ',' && x[1..][i + 1] == ' ')
        {
          assert x[1..][i] == x[i + 1] && x[1..][i + 1] == x[i + 2];
        }
      }
      SplitNoSep(x[1..]);
      assert [x[0]] + x[1..] == x;
    }
  }

  lemma {:induction false} SplitAfterItem(x: string, t: string)
    requires NoSep(x)
    ensures Split(x + Sep + t) == [x] + Split(t)
    decreases |x|
  {
    var s := x + Sep + t;
    if |x| == 0 {
      assert s == ", " + t;
      assert s[2..] == t;
    } else {
      assert s[0] == x[0];
      assert !(s[0] == ',' && s[1] == ' ') by {
        if |x| >= 2 {
          assert s[1] == x[1];
        } else {
          assert s[1] == ',';
        }
      }
      assert NoSep(x[1..]) by {
        forall i | 0 <= i < |x[1..]| - 1
          ensures !(x[1..][i] == ',' && x[1..][i + 1] == ' ')
        {
          assert x[1..][i] == x[i + 1] && x[1..][i + 1] == x[i + 2];
        }
      }
      assert s[1..] == x[1..] + Sep + t;
      SplitAfterItem(x[1..], t);
      assert [x[0]] + x[1..] == x;
    }
  }

  /** Joining separator-free items and splitting the result gives the items
      back: the joined field loses nothing unless an item itself contains `", "`. */
  lemma {:induction false} SplitJoin(xs: seq<string>)
    requires |xs| > 0
    requires forall i :: 0 <= i < |xs| ==> NoSep(xs[i])
    ensures Split(Join(xs)) == xs
    decreases |xs|
  {
    if |xs| == 1 {
      SplitNoSep(xs[0]);
    } else {
      SplitAfterItem(xs[0], Join(xs[1..]));
      SplitJoin(xs[1..]);
      assert [xs[0]] + xs[1..] == xs;
    }
  }

  /** Without the separator-free condition the join is lossy: one label that
      contains `", "` reads back like two labels. */
  lemma JoinIsLossyOnSeparator()
    ensures Join(["a, b"]) == Join(["a", "b"])
    ensures ["a, b"] != ["a", "b"]
  {
  }
}

=== FILE: wormbase.dfy ===
/** The WormBase side of WormData: the `fetch` boundary with the remote API
    taken out as an oracle, and the per-response shaping steps that the
    Python 2 and Python 3 versions of `populate` share. */
module WormBase {
  import opened Wrappers
  import opened PyJson

  /** GENE_BASE and PROTEIN_BASE. */
  datatype Base = GeneBase | ProteinBase

  /** One GET request: `<base>/<id>/<field>`. */
  datatype Lookup = Lookup(base: Base, id: string, field: string)

  /** The remote API: the decoded body of the response to a lookup, or None
      when the body is not JSON. */
  type Api = Lookup -> Option<Json>

  /** WormData's `data` dict and the lookups made so far, in order. */
  datatype State = State(data: map<string, Json>, lookups: seq<Lookup>)

  /** An exception escaping `populate`, with the lookups made before it. */
  datatype Halt = Halt(error: PyError, lookups: seq<Lookup>)

  /** A value computed by a step, with the state after it. */
  datatype Got = Got(value: Json, state: State)

  /** Values collected by a loop, with the state after it. */
  datatype Collected = Collected(items: seq<Json>, state: State)

  /** `j[field]["data"]` where both levels are dicts holding the keys. */
  function DataPath(j: Json, field: string): Option<Json> {
    if j.JObj? && field in j.fields && j.fields[field].JObj? && "data" in j.fields[field].fields
    then Some(j.fields[field].fields["data"])
    else None
  }

  /** The part of WormData.fetch after the request. A body that is not JSON
      gives None. Otherwise the field's `data` entry is returned when the body
      holds the field and the field's value holds `data`, and None when
      either membership test is false. The membership tests and subscripts
      are not guarded, so a value of the wrong type raises TypeError: a
      `null` or numeric body or field value, or a string or list that
      contains the name (Python `in` succeeds on it, the subscript does not). */
  function Unwrap(body: Option<Json>, field: string): (r: Result<Json, PyError>)
    ensures body.None? ==> r == Success(JNull)
    ensures body.Some? && DataPath(body.value, field).Some? ==> r == Success(DataPath(body.value, field).value)
    ensures r.Success? && (body.None? || DataPath(body.value, field).None?) ==> r.value == JNull
    ensures body.Some? && body.value.JObj? && (field in body.value.fields ==> body.value.fields[field].JObj?) ==> r.Success?
    ensures body == Some(JNull) ==> r == Failure(TypeError)
    ensures r.Failure? ==> r.error == TypeError
    ensures body.Some? && !body.value.JObj? ==> (r.Success? <==> Contains(field, body.value) == Success(false))
    ensures body.Some? && body.value.JObj? && field in body.value.fields ==>
              (r.Success? <==> body.value.fields[field].JObj? || Contains("data", body.value.fields[field]) == Success(false))
  {
    match body
    case None => Success(JNull)
    case Some(j) =>
      var present :- Contains(field, j);
      if !present then Success(JNull)
      else
        var inner :- Index(j, field);
        var hasData :- Contains("data", inner);
        if !hasData then Success(JNull) else Index(inner, "data")
  }

  /** Turns an exception raised inside `populate` into a halt of the run. */
  function Lift<T>(r: Result<T, PyError>, st: State): (h: Result<T, Halt>)
    ensures h.Success? <==> r.Success?
    ensures h.Success? ==> h.value == r.value
    ensures h.Failure? ==> h.error == Halt(r.error, st.lookups)
  {
    match r
    case Success(v) => Success(v)
    case Failure(e) => Failure(Halt(e, st.lookups))
  }

  /** `self.data[key] = value`. */
  function Set(st: State, key: string, value: Json): State {
    st.(data := st.data[key := value])
  }

  /** WormData.fetch(base, id, field) as a step: the lookup is recorded, then
      the body is unwrapped. */
  function Fetch(api: Api, st: State, base: Base, id: string, field: string): (r: Result<Got, Halt>)
    ensures r.Success? <==> Unwrap(api(Lookup(base, id, field)), field).Success?
    ensures r.Success? ==> r.value == Got(Unwrap(api(Lookup(base, id, field)), field).value,
                                         st.(lookups := st.lookups + [Lookup(base, id, field)]))
    ensures r.Failure? ==> r.error.lookups == st.lookups + [Lookup(base, id, field)]
  {
    var l := Lookup(base, id, field);
    var st' := st.(lookups := st.lookups + [l]);
    var v :- Lift(Unwrap(api(l), field), st');
    Success(Got(v, st'))
  }

  // ---------------------------------------------------------------- protein ids

  /** `item['protein']['id']` read with plain dict access, when present. */
  function ItemProteinId(item: Json): Option<Json> {
    if item.JObj? && "protein" in item.fields && item.fields["protein"].JObj? && "id" in item.fields["protein"].fields
    then Some(item.fields["protein"].fields["id"])
    else None
  }

  /** A table item shaped as the API documents it: null or a dict whose
      `protein` entry, if any, is a dict. */
  predicate WellShapedItem(item: Json) {
    item.JNull? || (item.JObj? && ("protein" in item.fields ==> item.fields["protein"].JObj?))
  }

  /** One pass of the gene_models loop body: a truthy item that holds
      `protein`, whose `protein` entry holds `id`, contributes that id. Some(id)
      when an id is appended, None when the item is skipped. Python's `in`
      is a substring or element test on strings and lists, so such an item
      can pass a membership test and then raise on the subscript. */
  function ProteinIdOf(item: Json): (r: Result<Option<Json>, PyError>)
    ensures WellShapedItem(item) ==> r == Success(ItemProteinId(item))
    ensures r.Success? ==> r.value == ItemProteinId(item)
    ensures item.JStr? && |item.s| < |"protein"| ==> r == Success(None)
  {
    if !Truthy(item) then Success(None)
    else
      var hasProtein :- Contains("protein", item);
      if !hasProtein then
        assert item.JStr? ==> |item.s| < |"protein"| ==> !IsSubstring("protein", item.s) by {
          if item.JStr? && |item.s| < |"protein"| {
            SubstringNotLonger("protein", item.s);
          }
        }
        Success(None)
      else
        assert item.JStr? ==> |item.s| >= |"protein"| by {
          if item.JStr? && |item.s| < |"protein"| {
            SubstringNotLonger("protein", item.s);
          }
        }
        var protein :- Index(item, "protein");
        var hasId :- Contains("id", protein);
        if !hasId then Success(None)
        else
          var id :- Index(protein, "id");
          Success(Some(id))
  }

  /** The protein ids of a list of table items, read with plain dict access:
      the reference for what the gene_models loop collects. */
  function ItemProteinIds(items: seq<Json>): seq<Json> {
    if |items| == 0 then []
    else
      (match ItemProteinId(items[0]) case Some(id) => [id] case None => []) + ItemProteinIds(items[1..])
  }

  /** The gene_models loop over a list of table items, stopping at the first
      item whose body raises. */
  function CollectIds(items: seq<Json>): (r: Result<seq<Json>, PyError>)
    ensures r.Success? <==> forall i :: 0 <= i < |items| ==> ProteinIdOf(items[i]).Success?
    ensures r.Success? ==> |r.value| <= |items|
    ensures r.Success? ==> r.value == ItemProteinIds(items)
    ensures (forall i :: 0 <= i < |items| ==> WellShapedItem(items[i])) ==> r.Success?
    decreases |items|
  {
    if |items| == 0 then Success([])
    else
      var first :- ProteinIdOf(items[0]);
      var rest :- CollectIds(items[1..]);
      assert forall i :: 1 <= i < |items| ==> items[1..][i - 1] == items[i];
      Success((match first case Some(id) => [id] case None => []) + rest)
  }

  /** The characters of a string, as the one-character strings a Python `for` yields. */
  function Chars(s: string): (r: seq<Json>)
    ensures |r| == |s|
    ensures forall i :: 0 <= i < |s| ==> r[i] == JStr([s[i]])
  {
    seq(|s|, i requires 0 <= i < |s| => JStr([s[i]]))
  }

  /** The loop over a string table collects nothing: every character is
      too short to contain "protein". */
  lemma {:induction false} CharsCollectNothing(s: string)
    ensures CollectIds(Chars(s)) == Success([])
    decreases |s|
  {
    if |s| > 0 {
      assert Chars(s)[1..] == Chars(s[1..]);
      CharsCollectNothing(s[1..]);
    }
  }

  /** A dict key never contributes an id: the string either lacks "protein"
      or raises on `key['protein']`. */
  lemma KeyNeverContributes(k: string)
    ensures ProteinIdOf(JStr(k)).Success? ==> ProteinIdOf(JStr(k)).value.None?
  {
  }

  /** The gene_models loop over whatever the response's `table` holds. A list
      yields its items; a string yields its characters; a dict yields its
      keys, all of which are skipped or raise, so the dict's key order does
      not matter; anything else is not iterable. */
  function TableIds(table: Json): (r: Result<seq<Json>, PyError>)
    ensures table.JArr? ==> r == CollectIds(table.items)
    ensures table.JStr? ==> r == Success([])
    ensures table.JObj? && r.Success? ==> r.value == []
    ensures table.JNull? ==> r == Failure(TypeError)
  {
    match table
    case JArr(items) => CollectIds(items)
    case JStr(s) => CharsCollectNothing(s); CollectIds(Chars(s))
    case JObj(fields) =>
      if exists k :: k in fields && ProteinIdOf(JStr(k)).Failure? then Failure(TypeError) else Success([])
    case _ => Failure(TypeError)
  }

  // ---------------------------------------------------------------- orthologs

  /** `item['ortholog']['label']`. */
  function OrthologLabel(item: Json): (r: Result<Json, PyError>)
    ensures r.Success? <==> item.JObj? && "ortholog" in item.fields && item.fields["ortholog"].JObj?
                            && "label" in item.fields["ortholog"].fields
    ensures r.Success? ==> r.value == item.fields["ortholog"].fields["label"]
  {
    var ortholog :- Index(item, "ortholog");
    Index(ortholog, "label")
  }

  /** The ortholog loop over a list of entries. */
  function LabelsOf(items: seq<Json>): (r: Result<seq<Json>, PyError>)
    ensures r.Success? <==> forall i :: 0 <= i < |items| ==> OrthologLabel(items[i]).Success?
    ensures r.Success? ==> |r.value| == |items|
    ensures r.Success? ==> forall i :: 0 <= i < |items| ==> r.value[i] == OrthologLabel(items[i]).value
    decreases |items|
  {
    if |items| == 0 then Success([])
    else
      var first :- OrthologLabel(items[0]);
      var rest :- LabelsOf(items[1..]);
      Success([first] + rest)
  }

  /** The labels of an ortholog response: each item's ortholog label, in
      order. A falsy response gives no labels; iterating a non-empty string or dict yields
      strings, and subscripting a string with a string raises, as does
      iterating a number. */
  function OrthologLabels(resp: Json): (r: Result<seq<Json>, PyError>)
    ensures !Truthy(resp) ==> r == Success([])
    ensures resp.JArr? ==> r == LabelsOf(resp.items)
    ensures Truthy(resp) && !resp.JArr? ==> r == Failure(TypeError)
  {
    if !Truthy(resp) then Success([])
    else
      match resp
      case JArr(items) => LabelsOf(items)
      case _ => Failure(TypeError)
  }

  /** One ortholog field (human_orthologs, nematode_orthologs or
      other_orthologs): fetch, collect the labels, store them joined or None. */
  function OrthologField(api: Api, st: State, geneId: string, field: string): (r: Result<State, Halt>)
    ensures r.Failure? ==> st.lookups + [Lookup(GeneBase, geneId, field)] <= r.error.lookups
    ensures r.Success? <==> OrthologValue(api, geneId, field).Success?
    ensures r.Success? ==> r.value == State(st.data[field := OrthologValue(api, geneId, field).value],
                                            st.lookups + [Lookup(GeneBase, geneId, field)])
  {
    var resp :- Fetch(api, st, GeneBase, geneId, field);
    var labels :- Lift(OrthologLabels(resp.value), resp.state);
    var joined :- Lift(JoinIfExtant(labels), resp.state);
    Success(Set(resp.state, field, joined))
  }

  /** The value an ortholog field receives, computed without the state. */
  function OrthologValue(api: Api, geneId: string, field: string): Result<Json, PyError> {
    var resp :- Unwrap(api(Lookup(GeneBase, geneId, field)), field);
    var labels :- OrthologLabels(resp);
    JoinIfExtant(labels)
  }

  // ---------------------------------------------------------------- best human match

  /** One best_human_match response: a truthy response that holds
      `description` contributes it; a falsy one, or one without it, adds
      nothing. */
  function MatchDescription(resp: Json): (r: Result<Option<Json>, PyError>)
    ensures !Truthy(resp) ==> r == Success(None)
    ensures resp.JObj? ==> r == Success(if "description" in resp.fields then Some(resp.fields["description"]) else None)
  {
    if !Truthy(resp) then Success(None)
    else
      var has :- Contains("description", resp);
      if !has then Success(None)
      else
        var d :- Index(resp, "description");
        Success(Some(d))
  }

  /** The best_human_match lookups for a list of protein ids, in order. */
  function ProteinLookups(ids: seq<Json>): (ls: seq<Lookup>)
    requires AllStrings(ids)
    ensures |ls| == |ids|
    ensures forall i :: 0 <= i < |ids| ==> ls[i] == Lookup(ProteinBase, ids[i].s, "best_human_match")
    decreases |ids|
  {
    if |ids| == 0 then []
    else [Lookup(ProteinBase, ids[0].s, "best_human_match")] + ProteinLookups(ids[1..])
  }

  /** The value a best_human_match lookup yields, independent of when it is made. */
  function ProteinValue(api: Api, id: string): Result<Json, PyError> {
    Unwrap(api(Lookup(ProteinBase, id, "best_human_match")), "best_human_match")
  }

  /** The descriptions the best_human_match loop collects for `ids`, computed
      without recording lookups. */
  function Descriptions(api: Api, ids: seq<Json>): (r: Result<seq<Json>, PyError>)
    ensures r.Success? ==> AllStrings(ids) && |r.value| <= |ids|
    decreases |ids|
  {
    if |ids| == 0 then Success([])
    else if !ids[0].JStr? then Failure(TypeError)
    else
      var resp :- ProteinValue(api, ids[0].s);
      var desc :- MatchDescription(resp);
      var rest :- Descriptions(api, ids[1..]);
      Success((match desc case Some(d) => [d] case None => []) + rest)
  }

  /** For each protein id in turn, fetch best_human_match and keep its description.
      Building the URL raises TypeError for an id that is not a string. */
  function BestHumanLoop(api: Api, st: State, ids: seq<Json>): (r: Result<Collected, Halt>)
    ensures r.Success? ==> AllStrings(ids)
    ensures r.Success? ==> r.value.state.data == st.data
    ensures r.Success? ==> r.value.state.lookups == st.lookups + ProteinLookups(ids)
    ensures r.Success? <==> Descriptions(api, ids).Success?
    ensures r.Success? ==> r.value.items == Descriptions(api, ids).value
    ensures r.Failure? ==> st.lookups <= r.error.lookups
    decreases |ids|
  {
    if |ids| == 0 then Success(Collected([], st))
    else if ids[0].JStr? then
      var resp :- Fetch(api, st, ProteinBase, ids[0].s, "best_human_match");
      var desc :- Lift(MatchDescription(resp.value), resp.state);
      var rest :- BestHumanLoop(api, resp.state, ids[1..]);
      Success(Collected((match desc case Some(d) => [d] case None => []) + rest.items, rest.state))
    else Failure(Halt(TypeError, st.lookups))
  }

  // ---------------------------------------------------------------- steps both versions share

  /** The one CuffLinks column copied into the record, as `up/down`. */
  const FoldChange: string := "log2(fold_change)"

  /** The state the constructor hands to `populate`: only `gene_id` set, no lookup made. */
  function Initial(geneId: string): State {
    State(map["gene_id" := JStr(geneId)], [])
  }

  /** The value a gene lookup yields, independent of when it is made. */
  function GeneValue(api: Api, geneId: string, field: string): Result<Json, PyError> {
    Unwrap(api(Lookup(GeneBase, geneId, field)), field)
  }

  /** The seven gene lookups `populate` makes, in order. */
  function GeneLookups(geneId: string): seq<Lookup> {
    [ Lookup(GeneBase, geneId, "sequence_name"),
      Lookup(GeneBase, geneId, "concise_description"),
      Lookup(GeneBase, geneId, "gene_models"),
      Lookup(GeneBase, geneId, "gene_class"),
      Lookup(GeneBase, geneId, "human_orthologs"),
      Lookup(GeneBase, geneId, "nematode_orthologs"),
      Lookup(GeneBase, geneId, "other_orthologs") ]
  }

  /** The `concise_description` text stored as `description`. */
  function DescriptionText(api: Api, geneId: string): Result<Json, PyError> {
    var description :- GeneValue(api, geneId, "concise_description");
    Index(description, "text")
  }

  /** sequence_name stored verbatim, then `description['text']`. */
  function Describe(api: Api, geneId: string, st: State): (r: Result<State, Halt>)
    ensures r.Failure? ==> st.lookups + GeneLookups(geneId)[..1] <= r.error.lookups
    ensures r.Success? <==> GeneValue(api, geneId, "sequence_name").Success? && DescriptionText(api, geneId).Success?
    ensures r.Success? ==> r.value == State(st.data["sequence_name" := GeneValue(api, geneId, "sequence_name").value]
                                                    ["description" := DescriptionText(api, geneId).value],
                                            st.lookups + GeneLookups(geneId)[..2])
  {
    var sequence :- Fetch(api, st, GeneBase, geneId, "sequence_name");
    var st1 := Set(sequence.state, "sequence_name", sequence.value);
    var description :- Fetch(api, st1, GeneBase, geneId, "concise_description");
    var text :- Lift(Index(description.value, "text"), description.state);
    Success(Set(description.state, "description", text))
  }

  /** The three ortholog fields, in order. */
  function Orthologs(api: Api, geneId: string, st: State): (r: Result<State, Halt>)
    ensures r.Failure? ==> st.lookups <= r.error.lookups
    ensures r.Success? <==> OrthologValue(api, geneId, "human_orthologs").Success?
                            && OrthologValue(api, geneId, "nematode_orthologs").Success?
                            && OrthologValue(api, geneId, "other_orthologs").Success?
    ensures r.Success? ==> r.value == State(st.data["human_orthologs" := OrthologValue(api, geneId, "human_orthologs").value]
                                                    ["nematode_orthologs" := OrthologValue(api, geneId, "nematode_orthologs").value]
                                                    ["other_orthologs" := OrthologValue(api, geneId, "other_orthologs").value],
                                            st.lookups + GeneLookups(geneId)[4..])
  {
    var st1 :- OrthologField(api, st, geneId, "human_orthologs");
    var st2 :- OrthologField(api, st1, geneId, "nematode_orthologs");
    var st3 :- OrthologField(api, st2, geneId, "other_orthologs");
    var h, n, o := Lookup(GeneBase, geneId, "human_orthologs"), Lookup(GeneBase, geneId, "nematode_orthologs"),
                   Lookup(GeneBase, geneId, "other_orthologs");
    assert GeneLookups(geneId)[4..] == [h, n, o];
    AppendThree(st.lookups, h, n, o);
    Success(st3)
  }

  // ---------------------------------------------------------------- the record

  /** The values a run writes after `up/down`, one per field. */
  datatype Values = Values(sequenceName: Json, description: Json, geneClass: Option<Json>,
                           human: Json, nematode: Json, other: Json,
                           proteinId: Json, bestHuman: Json)

  /** `data` with `gene_class` set when there is a label, untouched otherwise. */
  function WithGeneClass(data: map<string, Json>, tag: Option<Json>): map<string, Json> {
    match tag
    case Some(l) => data["gene_class" := l]
    case None => data
  }

  /** `data` with the values written in the order `populate` writes them. */
  function Fields(data: map<string, Json>, v: Values): map<string, Json> {
    WithGeneClass(data["sequence_name" := v.sequenceName]["description" := v.description], v.geneClass)
      ["human_orthologs" := v.human]
      ["nematode_orthologs" := v.nematode]
      ["other_orthologs" := v.other]
      ["protein_id" := v.proteinId]
      ["best_human_ortholog" := v.bestHuman]
  }

  /** The keys every enriched record holds. */
  const EnrichedKeys: set<string> :=
    {"gene_id", "sequence_name", "description", "protein_id",
     "human_orthologs", "nematode_orthologs", "other_orthologs", "best_human_ortholog"}

  /** `Fields` adds the seven fixed fields and `gene_class` when labelled,
      keeps every other entry, and holds each written value. */
  lemma FieldsContent(data: map<string, Json>, v: Values)
    ensures var f := Fields(data, v);
            && f.Keys == data.Keys + (EnrichedKeys - {"gene_id"}) + (if v.geneClass.Some? then {"gene_class"} else {})
            && (forall k :: k in data && k !in EnrichedKeys && k != "gene_class" ==> f[k] == data[k])
            && (v.geneClass.Some? ==> f["gene_class"] == v.geneClass.value)
            && f["sequence_name"] == v.sequenceName
            && f["description"] == v.description
            && f["protein_id"] == v.proteinId
            && f["human_orthologs"] == v.human
            && f["nematode_orthologs"] == v.nematode
            && f["other_orthologs"] == v.other
            && f["best_human_ortholog"] == v.bestHuman
  {
  }

  /** The record `up/down` leaves: the gene id, and the fold change when
      there is one. */
  function Seed(geneId: string, upDown: Option<Json>): map<string, Json> {
    match upDown
    case Some(u) => map["gene_id" := JStr(geneId), "up/down" := u]
    case None => map["gene_id" := JStr(geneId)]
  }

  /** The record a run writes over `Seed`: its keys, and the value under each. */
  lemma RecordContent(geneId: string, upDown: Option<Json>, v: Values)
    ensures var data := Fields(Seed(geneId, upDown), v);
            && data.Keys == EnrichedKeys + (if upDown.Some? then {"up/down"} else {})
                            + (if v.geneClass.Some? then {"gene_class"} else {})
            && data["gene_id"] == JStr(geneId)
            && (upDown.Some? ==> data["up/down"] == upDown.value)
            && (v.geneClass.Some? ==> data["gene_class"] == v.geneClass.value)
            && data["sequence_name"] == v.sequenceName
            && data["description"] == v.description
            && data["protein_id"] == v.proteinId
            && data["human_orthologs"] == v.human
            && data["nematode_orthologs"] == v.nematode
            && data["other_orthologs"] == v.other
            && data["best_human_ortholog"] == v.bestHuman
  {
    var base := Seed(geneId, upDown);
    FieldsContent(base, v);
    var u: set<string> := if upDown.Some? then {"up/down"} else {};
    assert base.Keys == {"gene_id"} + u;
    KeysRegroup("gene_id", EnrichedKeys, u, if v.geneClass.Some? then {"gene_class"} else {});
  }

  /** What `get` answers on such a record: each written value, and None for
      `up/down` or `gene_class` when they were not written. */
  lemma RecordGet(geneId: string, upDown: Option<Json>, v: Values)
    ensures var data := Fields(Seed(geneId, upDown), v);
            && Get(data, "gene_id") == JStr(geneId)
            && Get(data, "up/down") == (match upDown case Some(u) => u case None => JNull)
            && Get(data, "gene_class") == (match v.geneClass case Some(l) => l case None => JNull)
            && Get(data, "sequence_name") == v.sequenceName
            && Get(data, "description") == v.description
            && Get(data, "protein_id") == v.proteinId
            && Get(data, "human_orthologs") == v.human
            && Get(data, "nematode_orthologs") == v.nematode
            && Get(data, "other_orthologs") == v.other
            && Get(data, "best_human_ortholog") == v.bestHuman
  {
    var data := Fields(Seed(geneId, upDown), v);
    RecordContent(geneId, upDown, v);
    OptionalKeysAbsent();
    if upDown.None? {
      assert "up/down" !in data;
    }
    if v.geneClass.None? {
      assert "gene_class" !in data;
    }
  }

  /** Neither optional key is among the fixed ones, nor equal to the other. */
  lemma OptionalKeysAbsent()
    ensures "up/down" !in EnrichedKeys + {"gene_class"}
    ensures "gene_class" !in EnrichedKeys + {"up/down"}
  {
    assert |"up/down"| == 7 && |"gene_class"| == 10;
  }

  /** The lookups a run made, whether it finished or raised. */
  function Trace(r: Result<State, Halt>): seq<Lookup> {
    match r
    case Success(st) => st.lookups
    case Failure(h) => h.lookups
  }

  /** WormData.get: the stored value, or None for a key never set. */
  function Get(data: map<string, Json>, datum: string): (r: Json)
    ensures datum in data ==> r == data[datum]
    ensures datum !in data ==> r == JNull
  {
    if datum in data then data[datum] else JNull
  }

  // ---------------------------------------------------------------- sequence and set algebra
  // Regrouping facts the proofs about lookup lists and record keys hand to
  // the solver at their use sites; they model nothing of WormBait.

  lemma AppendThree<T>(xs: seq<T>, a: T, b: T, c: T)
    ensures ((xs + [a]) + [b]) + [c] == xs + [a, b, c]
  {
  }

  /** The seven gene lookups are the describe pair, the models pair and the
      ortholog triple. */
  lemma GeneLookupsSplit(geneId: string)
    ensures GeneLookups(geneId)[..2] + GeneLookups(geneId)[2..4] + GeneLookups(geneId)[4..] == GeneLookups(geneId)
  {
    var g := GeneLookups(geneId);
    assert g[..2] + g[2..4] + g[4..] == g[..4] + g[4..];
  }

  lemma Regroup<T>(a: seq<T>, b: seq<T>, c: seq<T>, d: seq<T>, e: seq<T>)
    ensures (((a + b) + c) + d) + e == a + (b + c + d) + e
  {
  }

  lemma EmptyLeft<T>(a: seq<T>)
    ensures [] + a == a
  {
  }

  lemma EmptyRight<T>(a: seq<T>)
    ensures a + [] == a
  {
  }

  lemma PrefixChain<T>(a: seq<T>, b: seq<T>, c: seq<T>, d: seq<T>, e: seq<T>)
    requires a <= b && b <= c && c <= d && d <= e
    ensures a <= e
  {
  }

  lemma KeysRegroup<T>(x: T, e: set<T>, u: set<T>, g: set<T>)
    requires x in e
    ensures {x} + u + (e - {x}) + g == e + u + g
  {
  }
}

=== FILE: wormdata_py2.dfy ===
/** WormData.populate as written in python2/WormCSV.py, the reference
    version: the `WBGene` prefix guard, the guarded `up/down` lookup, the
    guarded gene_class label, and protein ids kept as a list until after the
    best_human_match loop. */
module WormDataPy2 {
  import opened Wrappers
  import opened PyJson
  import opened CuffLink
  import opened WormBase

  /** Every WormBase gene id starts with this prefix. */
  const GenePrefix: string := "WBGene"

  /** The gene id is non-empty and carries the WormBase gene prefix. */
  predicate IsWormBaseGene(geneId: string) {
    |geneId| > 0 && GenePrefix <= geneId
  }

  /** A non-empty dbId copies the row's fold change into `up/down`; an empty
      one leaves the record alone. An unknown id makes `get` return None,
      and subscripting None raises. */
  function UpDown(db: Database, dbId: string, st: State): (r: Result<State, Halt>)
    ensures r.Success? ==> r.value.lookups == st.lookups
    ensures dbId == "" ==> r == Success(st)
    ensures dbId != "" && dbId !in db ==> r == Failure(Halt(TypeError, st.lookups))
    ensures dbId != "" && dbId in db && FoldChange !in db[dbId] ==> r == Failure(Halt(KeyError, st.lookups))
    ensures dbId != "" && dbId in db && FoldChange in db[dbId] ==> r == Success(Set(st, "up/down", JStr(db[dbId][FoldChange])))
  {
    if dbId == "" then Success(st)
    else
      match CuffLink.Get(db, dbId)
      case None => Failure(Halt(TypeError, st.lookups))
      case Some(row) =>
        if FoldChange in row then Success(Set(st, "up/down", JStr(row[FoldChange])))
        else Failure(Halt(KeyError, st.lookups))
  }

  /** The protein ids of a gene_models response: none when the response is
      falsy or has no `table`, otherwise those the table yields. */
  function ProteinIds(models: Json): (r: Result<seq<Json>, PyError>)
    ensures !Truthy(models) ==> r == Success([])
    ensures models.JObj? && "table" !in models.fields ==> r == Success([])
    ensures models.JObj? && "table" in models.fields ==> r == TableIds(models.fields["table"])
  {
    if !Truthy(models) then Success([])
    else
      var hasTable :- Contains("table", models);
      if !hasTable then Success([])
      else
        var table :- Index(models, "table");
        TableIds(table)
  }

  /** `geneClass['tag']['label']` read with plain dict access, when present. */
  function TagLabel(geneClass: Json): Option<Json> {
    if geneClass.JObj? && "tag" in geneClass.fields && geneClass.fields["tag"].JObj?
       && "label" in geneClass.fields["tag"].fields
    then Some(geneClass.fields["tag"].fields["label"])
    else None
  }

  /** The label of a truthy gene_class response whose `tag` holds `label`:
      the label to store, or None to leave `gene_class` unset. */
  function GeneClassLabel(geneClass: Json): (r: Result<Option<Json>, PyError>)
    ensures geneClass.JNull? ==> r == Success(None)
    ensures geneClass.JObj? && ("tag" in geneClass.fields ==> geneClass.fields["tag"].JObj?) ==> r == Success(TagLabel(geneClass))
    ensures r.Success? && r.value.Some? ==> r.value == TagLabel(geneClass)
  {
    if !Truthy(geneClass) then Success(None)
    else
      var hasTag :- Contains("tag", geneClass);
      if !hasTag then Success(None)
      else
        var tag :- Index(geneClass, "tag");
        var hasLabel :- Contains("label", tag);
        if !hasLabel then Success(None)
        else
          var lbl :- Index(tag, "label");
          Success(Some(lbl))
  }

  /** The protein ids collected from the gene_models response. */
  function ModelIds(api: Api, geneId: string): Result<seq<Json>, PyError> {
    var models :- GeneValue(api, geneId, "gene_models");
    ProteinIds(models)
  }

  /** The gene_class label, if the gene_class response carries one. */
  function GeneClass(api: Api, geneId: string): Result<Option<Json>, PyError> {
    var geneClass :- GeneValue(api, geneId, "gene_class");
    GeneClassLabel(geneClass)
  }

  /** gene_models and gene_class: the collected protein ids, with
      `gene_class` set only when the label is present. */
  function Models(api: Api, geneId: string, st: State): (r: Result<Collected, Halt>)
    ensures r.Failure? ==> st.lookups <= r.error.lookups
    ensures r.Success? <==> ModelIds(api, geneId).Success? && GeneClass(api, geneId).Success?
    ensures r.Success? ==> r.value == Collected(ModelIds(api, geneId).value,
                                                State(WithGeneClass(st.data, GeneClass(api, geneId).value),
                                                      st.lookups + GeneLookups(geneId)[2..4]))
  {
    var models :- Fetch(api, st, GeneBase, geneId, "gene_models");
    var ids :- Lift(ProteinIds(models.value), models.state);
    var geneClass :- Fetch(api, models.state, GeneBase, geneId, "gene_class");
    var tag :- Lift(GeneClassLabel(geneClass.value), geneClass.state);
    match tag
    case Some(l) => Success(Collected(ids, Set(geneClass.state, "gene_class", l)))
    case None => Success(Collected(ids, geneClass.state))
  }

  /** The best_human_match loop over the protein ids, which are still a list
      here, followed by joining protein_id and best_human_ortholog. */
  function Proteins(api: Api, ids: seq<Json>, st: State): (r: Result<State, Halt>)
    ensures r.Failure? ==> st.lookups <= r.error.lookups
    ensures r.Success? <==> AllStrings(ids) && JoinIfExtant(ids).Success? && Descriptions(api, ids).Success?
                            && JoinIfExtant(Descriptions(api, ids).value).Success?
    ensures r.Success? ==> r.value == State(st.data["protein_id" := JoinIfExtant(ids).value]
                                                    ["best_human_ortholog" := JoinIfExtant(Descriptions(api, ids).value).value],
                                            st.lookups + ProteinLookups(ids))
  {
    var best :- BestHumanLoop(api, st, ids);
    // The loop has already raised on any id that is not a string, so this join cannot fail.
    var pid := JoinIfExtant(ids).value;
    var bho :- Lift(JoinIfExtant(best.items), best.state);
    Success(Set(Set(best.state, "protein_id", pid), "best_human_ortholog", bho))
  }

  /** The body of `populate` under the prefix guard. */
  function Enrich(api: Api, db: Database, dbId: string, geneId: string, st: State): (r: Result<State, Halt>)
    ensures dbId != "" && dbId !in db ==> r == Failure(Halt(TypeError, st.lookups))
  {
    var st1 :- UpDown(db, dbId, st);
    var st2 :- Describe(api, geneId, st1);
    AfterDescribe(api, geneId, st2)
  }

  /** The gene_models, gene_class, ortholog and protein steps, in order. Each
      only appends lookups, so the lookups made before are kept. */
  function AfterDescribe(api: Api, geneId: string, st: State): (r: Result<State, Halt>)
    ensures st.lookups <= Trace(r)
  {
    var models :- Models(api, geneId, st);
    var st3 :- Orthologs(api, geneId, models.state);
    var r := Proteins(api, models.items, st3);
    assert st.lookups <= models.state.lookups <= st3.lookups <= Trace(r);
    r
  }

  /** Every response a successful run read was well enough shaped to yield its value. */
  predicate ResponsesUsable(api: Api, geneId: string) {
    && GeneValue(api, geneId, "sequence_name").Success?
    && DescriptionText(api, geneId).Success?
    && ModelIds(api, geneId).Success?
    && GeneClass(api, geneId).Success?
    && OrthologValue(api, geneId, "human_orthologs").Success?
    && OrthologValue(api, geneId, "nematode_orthologs").Success?
    && OrthologValue(api, geneId, "other_orthologs").Success?
    && AllStrings(ModelIds(api, geneId).value)
    && JoinIfExtant(ModelIds(api, geneId).value).Success?
    && Descriptions(api, ModelIds(api, geneId).value).Success?
    && JoinIfExtant(Descriptions(api, ModelIds(api, geneId).value).value).Success?
  }

  /** The values the responses yield. */
  function Responses(api: Api, geneId: string): Values
    requires ResponsesUsable(api, geneId)
  {
    var ids := ModelIds(api, geneId).value;
    Values(GeneValue(api, geneId, "sequence_name").value, DescriptionText(api, geneId).value,
           GeneClass(api, geneId).value,
           OrthologValue(api, geneId, "human_orthologs").value,
           OrthologValue(api, geneId, "nematode_orthologs").value,
           OrthologValue(api, geneId, "other_orthologs").value,
           JoinIfExtant(ids).value, JoinIfExtant(Descriptions(api, ids).value).value)
  }

  /** What a successful `Enrich` leaves behind: every response usable, the
      fields written on top of the `up/down` step's record, and the seven
      gene lookups followed by one best_human_match lookup per protein id. */
  lemma EnrichSuccess(api: Api, db: Database, dbId: string, geneId: string, st: State)
    requires Enrich(api, db, dbId, geneId, st).Success?
    ensures UpDown(db, dbId, st).Success?
    ensures ResponsesUsable(api, geneId)
    ensures Enrich(api, db, dbId, geneId, st).value
              == State(Fields(UpDown(db, dbId, st).value.data, Responses(api, geneId)),
                       st.lookups + GeneLookups(geneId) + ProteinLookups(ModelIds(api, geneId).value))
  {
    var st1 := UpDown(db, dbId, st).value;
    var st2 := Describe(api, geneId, st1).value;
    var models := Models(api, geneId, st2).value;
    var st3 := Orthologs(api, geneId, models.state).value;
    var st4 := Proteins(api, models.items, st3).value;
    assert AfterDescribe(api, geneId, st2) == Success(st4);
    assert Enrich(api, db, dbId, geneId, st) == Success(st4);
    var g := GeneLookups(geneId);
    var p := ProteinLookups(models.items);
    assert st4.lookups == (((st.lookups + g[..2]) + g[2..4]) + g[4..]) + p;
    Regroup(st.lookups, g[..2], g[2..4], g[4..], p);
    GeneLookupsSplit(geneId);
  }

  /** WormData(dbId, geneId, database): the constructor's `gene_id` then `populate`.
      A gene id without the `WBGene` prefix yields the bare record with no
      lookup; an unknown non-empty dbId raises before any lookup. */
  function Populate(api: Api, db: Database, dbId: string, geneId: string): (r: Result<State, Halt>)
    ensures !IsWormBaseGene(geneId) ==> r == Success(State(map["gene_id" := JStr(geneId)], []))
    ensures IsWormBaseGene(geneId) && dbId != "" && dbId !in db ==> r == Failure(Halt(TypeError, []))
    ensures IsWormBaseGene(geneId) && dbId != "" && dbId in db && FoldChange !in db[dbId] ==> r == Failure(Halt(KeyError, []))
  {
    if IsWormBaseGene(geneId) then Enrich(api, db, dbId, geneId, Initial(geneId))
    else Success(Initial(geneId))
  }

  /** Once the prefix guard and the up/down lookup pass, lookups are made:
      the first is always sequence_name, whether the run then finishes or raises. */
  lemma PopulateFirstLookup(api: Api, db: Database, dbId: string, geneId: string)
    requires IsWormBaseGene(geneId)
    requires dbId == "" || (dbId in db && FoldChange in db[dbId])
    ensures var t := Trace(Populate(api, db, dbId, geneId));
            |t| > 0 && t[0] == Lookup(GeneBase, geneId, "sequence_name")
  {
    var st := Initial(geneId);
    EnrichFirstLookup(api, db, dbId, geneId, st);
    assert GeneLookups(geneId)[..1] == [Lookup(GeneBase, geneId, "sequence_name")];
  }

  lemma EnrichFirstLookup(api: Api, db: Database, dbId: string, geneId: string, st: State)
    requires UpDown(db, dbId, st).Success?
    ensures st.lookups + GeneLookups(geneId)[..1] <= Trace(Enrich(api, db, dbId, geneId, st))
  {
    var g := GeneLookups(geneId);
    var head := st.lookups + g[..1];
    var st1 := UpDown(db, dbId, st).value;
    var r2 := Describe(api, geneId, st1);
    if r2.Success? {
      var st2 := r2.value;
      assert head <= st2.lookups by {
        assert st2.lookups == head + [g[1]];
      }
      assert Enrich(api, db, dbId, geneId, st) == AfterDescribe(api, geneId, st2);
      PrefixChain(head, st2.lookups, st2.lookups, st2.lookups, Trace(AfterDescribe(api, geneId, st2)));
    } else {
      assert Enrich(api, db, dbId, geneId, st) == Failure(r2.error);
    }
  }

  /** A successful run makes the seven gene lookups and then exactly one
      best_human_match lookup per collected protein id, in order: the ids are
      still a list when the loop runs, so a single id is never iterated
      character by character. */
  lemma PopulateLookups(api: Api, db: Database, dbId: string, geneId: string)
    requires IsWormBaseGene(geneId)
    requires Populate(api, db, dbId, geneId).Success?
    ensures ModelIds(api, geneId).Success? && AllStrings(ModelIds(api, geneId).value)
    ensures Populate(api, db, dbId, geneId).value.lookups == GeneLookups(geneId) + ProteinLookups(ModelIds(api, geneId).value)
    ensures |Populate(api, db, dbId, geneId).value.lookups| == 7 + |ModelIds(api, geneId).value|
  {
    var st0 := Initial(geneId);
    assert Populate(api, db, dbId, geneId) == Enrich(api, db, dbId, geneId, st0);
    EnrichSuccess(api, db, dbId, geneId, st0);
    var g, p := GeneLookups(geneId), ProteinLookups(ModelIds(api, geneId).value);
    EmptyLeft(g);
    assert |g| == 7;
  }

  /** The record a successful run produces: `Seed` (the gene id and, for a
      non-empty dbId, that row's fold change) with every field the responses
      yield written over it, so `gene_class` is present exactly when labelled
      (absent, not None, otherwise). */
  lemma PopulateRecord(api: Api, db: Database, dbId: string, geneId: string)
    requires IsWormBaseGene(geneId)
    requires Populate(api, db, dbId, geneId).Success?
    ensures ResponsesUsable(api, geneId)
    ensures dbId != "" ==> dbId in db && FoldChange in db[dbId]
    ensures Populate(api, db, dbId, geneId).value.data
              == Fields(Seed(geneId, if dbId != "" then Some(JStr(db[dbId][FoldChange])) else None),
                        Responses(api, geneId))
  {
    var st := Initial(geneId);
    EnrichSuccess(api, db, dbId, geneId, st);
    if dbId == "" {
      assert UpDown(db, dbId, st).value.data == Seed(geneId, None);
    } else {
      assert UpDown(db, dbId, st).value.data == Seed(geneId, Some(JStr(db[dbId][FoldChange])));
    }
  }

  /** The keys of a successful run's record: the fixed fields, `up/down`
      exactly when dbId is non-empty, `gene_class` exactly when labelled. */
  lemma PopulateKeys(api: Api, db: Database, dbId: string, geneId: string)
    requires IsWormBaseGene(geneId)
    requires Populate(api, db, dbId, geneId).Success?
    ensures ResponsesUsable(api, geneId)
    ensures Populate(api, db, dbId, geneId).value.data.Keys
              == EnrichedKeys + (if dbId != "" then {"up/down"} else {})
                 + (if GeneClass(api, geneId).value.Some? then {"gene_class"} else {})
  {
    PopulateRecord(api, db, dbId, geneId);
    RecordContent(geneId, if dbId != "" then Some(JStr(db[dbId][FoldChange])) else None, Responses(api, geneId));
  }

  /** What `get` answers for each field after a successful run, each value
      tied to the response it came from: up/down from the database row (None
      without a dbId), sequence_name verbatim, description's text, gene_class
      the tag label (None without one), and protein_id, the orthologs and
      best_human_ortholog joined by ", " (None for an empty list). */
  lemma PopulateValues(api: Api, db: Database, dbId: string, geneId: string)
    requires IsWormBaseGene(geneId)
    requires Populate(api, db, dbId, geneId).Success?
    ensures ResponsesUsable(api, geneId)
    ensures var data := Populate(api, db, dbId, geneId).value.data;
            var ids := ModelIds(api, geneId).value;
            && WormBase.Get(data, "gene_id") == JStr(geneId)
            && (dbId == "" ==> WormBase.Get(data, "up/down") == JNull)
            && (dbId != "" ==> dbId in db && FoldChange in db[dbId] && WormBase.Get(data, "up/down") == JStr(db[dbId][FoldChange]))
            && WormBase.Get(data, "gene_class") == (match GeneClass(api, geneId).value case Some(l) => l case None => JNull)
            && WormBase.Get(data, "sequence_name") == GeneValue(api, geneId, "sequence_name").value
            && WormBase.Get(data, "description") == DescriptionText(api, geneId).value
            && JoinIfExtant(ids) == Success(WormBase.Get(data, "protein_id"))
            && OrthologValue(api, geneId, "human_orthologs") == Success(WormBase.Get(data, "human_orthologs"))
            && OrthologValue(api, geneId, "nematode_orthologs") == Success(WormBase.Get(data, "nematode_orthologs"))
            && OrthologValue(api, geneId, "other_orthologs") == Success(WormBase.Get(data, "other_orthologs"))
            && JoinIfExtant(Descriptions(api, ids).value) == Success(WormBase.Get(data, "best_human_ortholog"))
  {
    PopulateRecord(api, db, dbId, geneId);
    var upDown := if dbId != "" then Some(JStr(db[dbId][FoldChange])) else None;
    RecordGet(geneId, upDown, Responses(api, geneId));
  }

  /** The converse of `PopulateRecord`: with the dbId resolved (or empty) and
      every response usable, the run finishes. */
  lemma PopulateSucceedsWhen(api: Api, db: Database, dbId: string, geneId: string)
    requires IsWormBaseGene(geneId)
    requires dbId == "" || (dbId in db && FoldChange in db[dbId])
    requires ResponsesUsable(api, geneId)
    ensures Populate(api, db, dbId, geneId).Success?
  {
    var st := Initial(geneId);
    var r1 := UpDown(db, dbId, st);
    assert r1.Success?;
    var r2 := Describe(api, geneId, r1.value);
    assert r2.Success?;
    var r3 := Models(api, geneId, r2.value);
    assert r3.Success?;
    var r4 := Orthologs(api, geneId, r3.value.state);
    assert r4.Success?;
    assert Proteins(api, r3.value.items, r4.value).Success?;
    assert Populate(api, db, dbId, geneId) == Enrich(api, db, dbId, geneId, st);
  }

  /** A gene with no protein id: the run still finishes after the seven gene
      lookups, with protein_id and best_human_ortholog both None. */
  lemma NoProteinIds(api: Api, db: Database, dbId: string, geneId: string)
    requires IsWormBaseGene(geneId)
    requires dbId == "" || (dbId in db && FoldChange in db[dbId])
    requires GeneValue(api, geneId, "sequence_name").Success? && DescriptionText(api, geneId).Success?
    requires ModelIds(api, geneId) == Success([]) && GeneClass(api, geneId).Success?
    requires OrthologValue(api, geneId, "human_orthologs").Success?
    requires OrthologValue(api, geneId, "nematode_orthologs").Success?
    requires OrthologValue(api, geneId, "other_orthologs").Success?
    ensures Populate(api, db, dbId, geneId).Success?
    ensures Populate(api, db, dbId, geneId).value.lookups == GeneLookups(geneId)
    ensures Populate(api, db, dbId, geneId).value.data["protein_id"] == JNull
    ensures Populate(api, db, dbId, geneId).value.data["best_human_ortholog"] == JNull
  {
    assert Descriptions(api, []) == Success([]);
    PopulateSucceedsWhen(api, db, dbId, geneId);
    PopulateLookups(api, db, dbId, geneId);
    PopulateValues(api, db, dbId, geneId);
    assert ProteinLookups([]) == [];
    EmptyRight(GeneLookups(geneId));
  }
}

=== FILE: wormdata_py3.dfy ===
/** WormData.populate as written in python3/WormCSV.py: no prefix guard, an
    unguarded `up/down` lookup, no guard on the gene_models response,
    `gene_class` stored as fetched, and the protein ids joined into one string
    before the best_human_match loop, which then iterates that string (or
    None) instead of the list of ids. */
module WormDataPy3 {
  import opened Wrappers
  import opened PyJson
  import opened CuffLink
  import opened WormBase
  import WormDataPy2

  /** The row's fold change is always copied into `up/down`: there is no
      guard, so an unknown id subscripts None. */
  function UpDown(db: Database, xlocId: string, st: State): (r: Result<State, Halt>)
    ensures r.Success? <==> xlocId in db && FoldChange in db[xlocId]
    ensures xlocId !in db ==> r == Failure(Halt(TypeError, st.lookups))
    ensures xlocId in db && FoldChange !in db[xlocId] ==> r == Failure(Halt(KeyError, st.lookups))
    ensures r.Success? ==> r.value == Set(st, "up/down", JStr(db[xlocId][FoldChange]))
  {
    match CuffLink.Get(db, xlocId)
    case None => Failure(Halt(TypeError, st.lookups))
    case Some(row) =>
      if FoldChange in row then Success(Set(st, "up/down", JStr(row[FoldChange])))
      else Failure(Halt(KeyError, st.lookups))
  }

  /** The protein ids of a gene_models response, read from its `table` with
      no check that the response is a dict holding one. */
  function ProteinIds(models: Json): (r: Result<seq<Json>, PyError>)
    ensures models.JObj? && "table" in models.fields ==> r == TableIds(models.fields["table"])
    ensures models.JObj? && "table" !in models.fields ==> r == Failure(KeyError)
    ensures !models.JObj? ==> r == Failure(TypeError)
  {
    var table :- Index(models, "table");
    TableIds(table)
  }

  /** The two versions collect the same ids from a response holding a table;
      a missing table or a null response, which the Python 2 guard turns into
      no ids, raises here. */
  lemma ProteinIdsAgree(models: Json)
    ensures models.JObj? && "table" in models.fields ==> ProteinIds(models) == WormDataPy2.ProteinIds(models)
    ensures !(models.JObj? && "table" in models.fields) ==> ProteinIds(models).Failure?
    ensures models.JNull? ==> WormDataPy2.ProteinIds(models) == Success([])
  {
  }

  /** The protein ids collected from the gene_models response. */
  function ModelIds(api: Api, geneId: string): Result<seq<Json>, PyError> {
    var models :- GeneValue(api, geneId, "gene_models");
    ProteinIds(models)
  }

  /** The protein_id value: the ids joined as soon as they are collected. */
  function ProteinId(api: Api, geneId: string): Result<Json, PyError> {
    var ids :- ModelIds(api, geneId);
    JoinIfExtant(ids)
  }

  /** gene_models with protein_id joined straight away, then gene_class
      stored as fetched. The value is the joined protein_id, which is what
      the best_human_match loop later iterates. */
  function Models(api: Api, geneId: string, st: State): (r: Result<Got, Halt>)
    ensures r.Failure? ==> st.lookups <= r.error.lookups
    ensures r.Success? <==> ProteinId(api, geneId).Success? && GeneValue(api, geneId, "gene_class").Success?
    ensures r.Success? ==> r.value == Got(ProteinId(api, geneId).value,
                                         State(st.data["protein_id" := ProteinId(api, geneId).value]
                                                      ["gene_class" := GeneValue(api, geneId, "gene_class").value],
                                               st.lookups + GeneLookups(geneId)[2..4]))
  {
    var models :- Fetch(api, st, GeneBase, geneId, "gene_models");
    var ids :- Lift(ProteinIds(models.value), models.state);
    var pid :- Lift(JoinIfExtant(ids), models.state);
    var st1 := Set(models.state, "protein_id", pid);
    var geneClass :- Fetch(api, st1, GeneBase, geneId, "gene_class");
    Success(Got(pid, Set(geneClass.state, "gene_class", geneClass.value)))
  }

  /** The joined protein_id is None or a string. */
  lemma ProteinIdShape(api: Api, geneId: string)
    requires ProteinId(api, geneId).Success?
    ensures ProteinId(api, geneId).value.JNull? <==> ModelIds(api, geneId).value == []
    ensures ProteinId(api, geneId).value.JStr? <==> ModelIds(api, geneId).value != []
  {
  }

  /** `isSingular` is false for both None and a string, so the best-match
      loop iterates the joined protein_id value itself: None is not
      iterable, and a string yields its characters, each fetched as a
      protein id. The descriptions found are then joined into
      best_human_ortholog. */
  function BestHuman(api: Api, joined: Json, st: State): (r: Result<State, Halt>)
    requires joined.JNull? || joined.JStr?
    ensures joined.JNull? ==> r == Failure(Halt(TypeError, st.lookups))
    ensures r.Failure? ==> st.lookups <= r.error.lookups
    ensures r.Success? <==> && joined.JStr?
                            && Descriptions(api, Chars(joined.s)).Success?
                            && JoinIfExtant(Descriptions(api, Chars(joined.s)).value).Success?
    ensures r.Success? ==> r.value == State(st.data["best_human_ortholog" := JoinIfExtant(Descriptions(api, Chars(joined.s)).value).value],
                                            st.lookups + ProteinLookups(Chars(joined.s)))
  {
    match joined
    case JStr(s) =>
      var best :- BestHumanLoop(api, st, Chars(s));
      var bho :- Lift(JoinIfExtant(best.items), best.state);
      Success(Set(best.state, "best_human_ortholog", bho))
    case JNull => Failure(Halt(TypeError, st.lookups))
  }

  /** WormData(xlocID, geneID, database): the constructor's `gene_id`, then
      `populate` on any gene id. An unknown xlocID raises before any lookup. */
  function Populate(api: Api, db: Database, xlocId: string, geneId: string): (r: Result<State, Halt>)
    ensures xlocId !in db ==> r == Failure(Halt(TypeError, []))
    ensures xlocId in db && FoldChange !in db[xlocId] ==> r == Failure(Halt(KeyError, []))
  {
    var st1 :- UpDown(db, xlocId, Initial(geneId));
    var st2 :- Describe(api, geneId, st1);
    var got :- Models(api, geneId, st2);
    var st3 :- Orthologs(api, geneId, got.state);
    BestHuman(api, got.value, st3)
  }

  /** Every response a successful run read was well enough shaped to yield its value. */
  predicate ResponsesUsable(api: Api, geneId: string) {
    && GeneValue(api, geneId, "sequence_name").Success?
    && DescriptionText(api, geneId).Success?
    && ProteinId(api, geneId).Success?
    && ProteinId(api, geneId).value.JStr?
    && GeneValue(api, geneId, "gene_class").Success?
    && OrthologValue(api, geneId, "human_orthologs").Success?
    && OrthologValue(api, geneId, "nematode_orthologs").Success?
    && OrthologValue(api, geneId, "other_orthologs").Success?
    && Descriptions(api, Chars(ProteinId(api, geneId).value.s)).Success?
    && JoinIfExtant(Descriptions(api, Chars(ProteinId(api, geneId).value.s)).value).Success?
  }

  /** The values the responses yield; `gene_class` is always written. */
  function Responses(api: Api, geneId: string): Values
    requires ResponsesUsable(api, geneId)
  {
    var s := ProteinId(api, geneId).value.s;
    Values(GeneValue(api, geneId, "sequence_name").value, DescriptionText(api, geneId).value,
           Some(GeneValue(api, geneId, "gene_class").value),
           OrthologValue(api, geneId, "human_orthologs").value,
           OrthologValue(api, geneId, "nematode_orthologs").value,
           OrthologValue(api, geneId, "other_orthologs").value,
           JStr(s), JoinIfExtant(Descriptions(api, Chars(s)).value).value)
  }

  /** Writing protein_id before gene_class and the orthologs, as this version
      does, builds the same record as the order `Fields` follows: the keys
      written are all distinct. */
  lemma WriteOrder(data: map<string, Json>, v: Values)
    requires v.geneClass.Some?
    ensures data["sequence_name" := v.sequenceName]["description" := v.description]
                ["protein_id" := v.proteinId]["gene_class" := v.geneClass.value]
                ["human_orthologs" := v.human]["nematode_orthologs" := v.nematode]
                ["other_orthologs" := v.other]["best_human_ortholog" := v.bestHuman]
            == Fields(data, v)
  {
  }

  /** The record a successful run produces, and the lookups behind it: the
      record has the same shape as the Python 2 one, with `up/down` and
      `gene_class` always present, and the lookups are the seven gene lookups
      followed by one best_human_match lookup per CHARACTER of the joined
      protein_id. */
  lemma PopulateSuccess(api: Api, db: Database, xlocId: string, geneId: string)
    requires Populate(api, db, xlocId, geneId).Success?
    ensures xlocId in db && FoldChange in db[xlocId]
    ensures ResponsesUsable(api, geneId)
    ensures Populate(api, db, xlocId, geneId).value
              == State(Fields(Seed(geneId, Some(JStr(db[xlocId][FoldChange]))), Responses(api, geneId)),
                       GeneLookups(geneId) + ProteinLookups(Chars(ProteinId(api, geneId).value.s)))
  {
    var st1, st2, got, st3 := Steps(api, db, xlocId, geneId);
    var st4 := BestHuman(api, got.value, st3).value;
    var v := Responses(api, geneId);
    LookupsOf(geneId, Chars(got.value.s), st1, st2, got.state, st3, st4);
    assert st2.data == st1.data["sequence_name" := v.sequenceName]["description" := v.description];
    assert got.state.data == st2.data["protein_id" := v.proteinId]["gene_class" := v.geneClass.value];
    assert st3.data == got.state.data["human_orthologs" := v.human]["nematode_orthologs" := v.nematode]
                                     ["other_orthologs" := v.other];
    assert st4.data == st3.data["best_human_ortholog" := v.bestHuman];
    assert st1.data == Seed(geneId, Some(JStr(db[xlocId][FoldChange])));
    WriteOrder(st1.data, v);
  }

  /** The successful steps of a run, named. */
  lemma Steps(api: Api, db: Database, xlocId: string, geneId: string) returns (st1: State, st2: State, got: Got, st3: State)
    requires Populate(api, db, xlocId, geneId).Success?
    ensures UpDown(db, xlocId, Initial(geneId)) == Success(st1)
    ensures Describe(api, geneId, st1) == Success(st2)
    ensures Models(api, geneId, st2) == Success(got)
    ensures Orthologs(api, geneId, got.state) == Success(st3)
    ensures got.value.JNull? || got.value.JStr?
    ensures Populate(api, db, xlocId, geneId) == BestHuman(api, got.value, st3)
  {
    st1 := UpDown(db, xlocId, Initial(geneId)).value;
    st2 := Describe(api, geneId, st1).value;
    got := Models(api, geneId, st2).value;
    st3 := Orthologs(api, geneId, got.state).value;
  }

  /** The lookups of the steps, chained. */
  lemma LookupsOf(geneId: string, ids: seq<Json>, st1: State, st2: State, st3: State, st4: State, st5: State)
    requires AllStrings(ids)
    requires st1.lookups == []
    requires st2.lookups == st1.lookups + GeneLookups(geneId)[..2]
    requires st3.lookups == st2.lookups + GeneLookups(geneId)[2..4]
    requires st4.lookups == st3.lookups + GeneLookups(geneId)[4..]
    requires st5.lookups == st4.lookups + ProteinLookups(ids)
    ensures st5.lookups == GeneLookups(geneId) + ProteinLookups(ids)
  {
    var g := GeneLookups(geneId);
    var p := ProteinLookups(ids);
    Regroup([], g[..2], g[2..4], g[4..], p);
    GeneLookupsSplit(geneId);
    EmptyLeft(g + p);
  }

  /** A successful run has collected at least one protein id: with none,
      protein_id is None and the loop over it raises. */
  lemma PopulateNeedsProteinIds(api: Api, db: Database, xlocId: string, geneId: string)
    requires Populate(api, db, xlocId, geneId).Success?
    ensures ModelIds(api, geneId).Success? && ModelIds(api, geneId).value != []
  {
    PopulateSuccess(api, db, xlocId, geneId);
    ProteinIdShape(api, geneId);
  }

  /** With every response well shaped but no protein id collected, the run
      makes all seven gene lookups and then raises TypeError. */
  lemma NoProteinIdsRaises(api: Api, db: Database, xlocId: string, geneId: string)
    requires xlocId in db && FoldChange in db[xlocId]
    requires GeneValue(api, geneId, "sequence_name").Success? && DescriptionText(api, geneId).Success?
    requires ModelIds(api, geneId) == Success([]) && GeneValue(api, geneId, "gene_class").Success?
    requires OrthologValue(api, geneId, "human_orthologs").Success?
    requires OrthologValue(api, geneId, "nematode_orthologs").Success?
    requires OrthologValue(api, geneId, "other_orthologs").Success?
    ensures Populate(api, db, xlocId, geneId) == Failure(Halt(TypeError, GeneLookups(geneId)))
  {
    assert ProteinId(api, geneId) == Success(JNull);
    var st3 := RunToBestHuman(api, db, xlocId, geneId);
    assert BestHuman(api, JNull, st3) == Failure(Halt(TypeError, st3.lookups));
  }

  /** With the row holding a fold change and every gene response usable, a
      run makes the seven gene lookups and reaches the best_human_match loop
      with the joined protein_id. */
  lemma RunToBestHuman(api: Api, db: Database, xlocId: string, geneId: string) returns (st3: State)
    requires xlocId in db && FoldChange in db[xlocId]
    requires GeneValue(api, geneId, "sequence_name").Success? && DescriptionText(api, geneId).Success?
    requires ProteinId(api, geneId).Success? && GeneValue(api, geneId, "gene_class").Success?
    requires OrthologValue(api, geneId, "human_orthologs").Success?
    requires OrthologValue(api, geneId, "nematode_orthologs").Success?
    requires OrthologValue(api, geneId, "other_orthologs").Success?
    ensures ProteinId(api, geneId).value.JNull? || ProteinId(api, geneId).value.JStr?
    ensures st3.lookups == GeneLookups(geneId)
    ensures Populate(api, db, xlocId, geneId) == BestHuman(api, ProteinId(api, geneId).value, st3)
  {
    var st1, st2 := FirstSteps(api, db, xlocId, geneId);
    var got := Models(api, geneId, st2).value;
    st3 := Orthologs(api, geneId, got.state).value;
    ProteinIdShape(api, geneId);
    assert ProteinLookups([]) == [];
    LookupsOf(geneId, [], st1, st2, got.state, st3, st3);
    EmptyRight(GeneLookups(geneId));
  }

  /** The `up/down` and description steps of such a run, named. */
  lemma FirstSteps(api: Api, db: Database, xlocId: string, geneId: string) returns (st1: State, st2: State)
    requires xlocId in db && FoldChange in db[xlocId]
    requires GeneValue(api, geneId, "sequence_name").Success? && DescriptionText(api, geneId).Success?
    ensures UpDown(db, xlocId, Initial(geneId)) == Success(st1) && st1.lookups == []
    ensures Describe(api, geneId, st1) == Success(st2)
    ensures st2.lookups == st1.lookups + GeneLookups(geneId)[..2]
  {
    st1 := UpDown(db, xlocId, Initial(geneId)).value;
    st2 := Describe(api, geneId, st1).value;
  }

  /** The converse of `PopulateSuccess`: with the xlocID's row holding a fold
      change and every response usable, the run finishes. */
  lemma PopulateSucceedsWhen(api: Api, db: Database, xlocId: string, geneId: string)
    requires xlocId in db && FoldChange in db[xlocId]
    requires ResponsesUsable(api, geneId)
    ensures Populate(api, db, xlocId, geneId).Success?
  {
    var r1 := UpDown(db, xlocId, Initial(geneId));
    assert r1.Success?;
    var r2 := Describe(api, geneId, r1.value);
    assert r2.Success?;
    var r3 := Models(api, geneId, r2.value);
    assert r3.Success?;
    var r4 := Orthologs(api, geneId, r3.value.state);
    assert r4.Success?;
    assert BestHuman(api, r3.value.value, r4.value).Success?;
  }

  /** Whenever this version collects ids at all, the Python 2 version
      collects the same ones from the same response. */
  lemma ModelIdsAgree(api: Api, geneId: string)
    requires ModelIds(api, geneId).Success?
    ensures WormDataPy2.ModelIds(api, geneId) == ModelIds(api, geneId)
  {
    ProteinIdsAgree(GeneValue(api, geneId, "gene_models").value);
  }

  /** One best_human_match lookup per character of `s`, each for a
      one-character id. */
  lemma CharLookups(s: string)
    ensures ProteinLookups(Chars(s)) == seq(|s|, i requires 0 <= i < |s| => Lookup(ProteinBase, [s[i]], "best_human_match"))
  {
  }

  /** The two versions part ways on a gene with a single protein id `s`: the
      Python 2 run looks `s` up once, while this one looks up each of its
      characters, so the traces differ whenever `s` is not one character long. */
  lemma SingleIdLookups(api: Api, db: Database, dbId: string, xlocId: string, geneId: string, s: string)
    requires WormDataPy2.IsWormBaseGene(geneId)
    requires WormDataPy2.Populate(api, db, dbId, geneId).Success?
    requires Populate(api, db, xlocId, geneId).Success?
    requires ModelIds(api, geneId) == Success([JStr(s)])
    ensures WormDataPy2.Populate(api, db, dbId, geneId).value.lookups
              == GeneLookups(geneId) + [Lookup(ProteinBase, s, "best_human_match")]
    ensures Populate(api, db, xlocId, geneId).value.lookups
              == GeneLookups(geneId) + seq(|s|, i requires 0 <= i < |s| => Lookup(ProteinBase, [s[i]], "best_human_match"))
    ensures |s| != 1 ==> WormDataPy2.Populate(api, db, dbId, geneId).value.lookups
                         != Populate(api, db, xlocId, geneId).value.lookups
  {
    ModelIdsAgree(api, geneId);
    WormDataPy2.PopulateLookups(api, db, dbId, geneId);
    PopulateSuccess(api, db, xlocId, geneId);
    assert Join(Strings([JStr(s)])) == s;
    CharLookups(s);
    assert ProteinLookups([JStr(s)]) == [Lookup(ProteinBase, s, "best_human_match")];
  }

  /** A gene id used in the example below. */
  const ExampleGene: string := "WBGene00000001"

  /** A CuffLinks database with the one row XLOC_1. */
  const ExampleDb: Database := map["XLOC_1" := map[FoldChange := "1.5"]]

  /** The data part of each example response: a description text, a
      gene_models table holding the one protein id "WP:CE1", and null for
      everything else. */
  function ExampleData(field: string): Json {
    if field == "concise_description" then JObj(map["text" := JStr("kinase")])
    else if field == "gene_models" then
      JObj(map["table" := JArr([JObj(map["protein" := JObj(map["id" := JStr("WP:CE1")])])])])
    else JNull
  }

  /** An API answering every lookup with `{field: {"data": ExampleData(field)}}`. */
  function ExampleApi(): Api {
    (l: Lookup) => Some(JObj(map[l.field := JObj(map["data" := ExampleData(l.field)])]))
  }

  /** On the example, both versions finish; the Python 2 run makes eight
      lookups, this one thirteen, one per character of "WP:CE1". */
  lemma SingleIdExample()
    ensures WormDataPy2.Populate(ExampleApi(), ExampleDb, "", ExampleGene).Success?
    ensures Populate(ExampleApi(), ExampleDb, "XLOC_1", ExampleGene).Success?
    ensures |WormDataPy2.Populate(ExampleApi(), ExampleDb, "", ExampleGene).value.lookups| == 8
    ensures |Populate(ExampleApi(), ExampleDb, "XLOC_1", ExampleGene).value.lookups| == 13
  {
    var api := ExampleApi();
    ExampleResponses();
    WormDataPy2.PopulateSucceedsWhen(api, ExampleDb, "", ExampleGene);
    PopulateSucceedsWhen(api, ExampleDb, "XLOC_1", ExampleGene);
    SingleIdCounts(api, ExampleDb, "", "XLOC_1", ExampleGene, "WP:CE1");
  }

  /** The lookup counts of `SingleIdLookups`: 7 + 1 against 7 + |s|. */
  lemma SingleIdCounts(api: Api, db: Database, dbId: string, xlocId: string, geneId: string, s: string)
    requires WormDataPy2.IsWormBaseGene(geneId)
    requires WormDataPy2.Populate(api, db, dbId, geneId).Success?
    requires Populate(api, db, xlocId, geneId).Success?
    requires ModelIds(api, geneId) == Success([JStr(s)])
    ensures |WormDataPy2.Populate(api, db, dbId, geneId).value.lookups| == 8
    ensures |Populate(api, db, xlocId, geneId).value.lookups| == 7 + |s|
  {
    SingleIdLookups(api, db, dbId, xlocId, geneId, s);
    assert |GeneLookups(geneId)| == 7;
  }

  /** The example responses are usable by both versions, and the gene_models
      one yields the single id "WP:CE1". */
  lemma ExampleResponses()
    ensures WormDataPy2.ResponsesUsable(ExampleApi(), ExampleGene)
    ensures ResponsesUsable(ExampleApi(), ExampleGene)
    ensures ModelIds(ExampleApi(), ExampleGene) == Success([JStr("WP:CE1")])
  {
    ExampleModels();
    ExampleGeneFields();
    ExampleMatches();
    NoMatches(ExampleApi(), [JStr("WP:CE1")]);
    NoMatches(ExampleApi(), Chars("WP:CE1"));
  }

  /** The example gene responses other than gene_models: each usable. */
  lemma ExampleGeneFields()
    ensures GeneValue(ExampleApi(), ExampleGene, "sequence_name").Success?
    ensures DescriptionText(ExampleApi(), ExampleGene).Success?
    ensures GeneValue(ExampleApi(), ExampleGene, "gene_class").Success?
    ensures WormDataPy2.GeneClass(ExampleApi(), ExampleGene) == Success(None)
    ensures OrthologValue(ExampleApi(), ExampleGene, "human_orthologs").Success?
    ensures OrthologValue(ExampleApi(), ExampleGene, "nematode_orthologs").Success?
    ensures OrthologValue(ExampleApi(), ExampleGene, "other_orthologs").Success?
  {
    var api := ExampleApi();
    var g := ExampleGene;
    ExampleValue(g, "sequence_name");
    ExampleValue(g, "concise_description");
    ExampleValue(g, "gene_class");
    ExampleValue(g, "human_orthologs");
    ExampleValue(g, "nematode_orthologs");
    ExampleValue(g, "other_orthologs");
  }

  /** Both versions collect "WP:CE1" from the example gene_models response. */
  lemma ExampleModels()
    ensures ModelIds(ExampleApi(), ExampleGene) == Success([JStr("WP:CE1")])
    ensures WormDataPy2.ModelIds(ExampleApi(), ExampleGene) == Success([JStr("WP:CE1")])
    ensures ProteinId(ExampleApi(), ExampleGene) == Success(JStr("WP:CE1"))
  {
    var id := JStr("WP:CE1");
    ExampleValue(ExampleGene, "gene_models");
    var item := JObj(map["protein" := JObj(map["id" := id])]);
    assert WellShapedItem(item) && ItemProteinId(item) == Some(id);
    assert ItemProteinIds([item]) == [id];
    ModelIdsAgree(ExampleApi(), ExampleGene);
    assert Join(Strings([id])) == "WP:CE1";
  }

  /** Each example gene lookup yields its `ExampleData`; the ortholog lookups,
      which yield null, give no labels. */
  lemma ExampleValue(g: string, field: string)
    ensures GeneValue(ExampleApi(), g, field) == Success(ExampleData(field))
    ensures ExampleData(field) == JNull ==> OrthologValue(ExampleApi(), g, field) == Success(JNull)
  {
    var d := JObj(map["data" := ExampleData(field)]);
    assert ExampleApi()(Lookup(GeneBase, g, field)) == Some(JObj(map[field := d]));
  }

  /** Every example best_human_match lookup carries no data. */
  lemma ExampleMatches()
    ensures forall id: string :: ExampleApi()(Lookup(ProteinBase, id, "best_human_match")) == NoMatch
  {
    assert ExampleData("best_human_match") == JNull;
  }

  /** A best_human_match response without data. */
  const NoMatch: Option<Json> := Some(JObj(map["best_human_match" := JObj(map["data" := JNull])]))

  /** An API whose best_human_match responses carry no data yields no
      descriptions. */
  lemma {:induction false} NoMatches(api: Api, ids: seq<Json>)
    requires AllStrings(ids)
    requires forall id: string :: api(Lookup(ProteinBase, id, "best_human_match")) == NoMatch
    ensures Descriptions(api, ids) == Success([])
    decreases |ids|
  {
    if |ids| > 0 {
      assert api(Lookup(ProteinBase, ids[0].s, "best_human_match")) == NoMatch;
      assert ProteinValue(api, ids[0].s) == Success(JNull);
      NoMatches(api, ids[1..]);
    }
  }
}

=== FILE: wrappers.dfy ===
/** Failure-compatible wrappers used throughout the model: `Option` for a
    value that may be missing and `Result` for a computation that may raise. */
module Wrappers {

  datatype Option<+T> = None | Some(value: T)

  /** Either a value or the error that stopped the computation. Usable with `:-`. */
  datatype Result<+T, +E> = Success(value: T) | Failure(error: E) {

    predicate IsFailure() {
      Failure?
    }

    function PropagateFailure<U>(): Result<U, E>
      requires Failure?
    {
      Failure(error)
    }

    function Extract(): T
      requires Success?
    {
      value
    }
  }
}
